=== FILE: README.md ===
# MessagePack for CLI: value model, adaptive dictionary and subtree guard

This project models three parts of the MessagePack for CLI runtime in Dafny and proves what they
guarantee.

- **`MessagePackObject`**, the dynamically typed MessagePack value. The model covers:
  - equality and hash codes;
  - the `IsTypeOf` lifting table and the kind tests;
  - the container accessors and the type check they share;
  - boxing to and from host objects;
  - the packer call `PackToMessage` makes.
- **`MessagePackObjectDictionary`**, the map behind a map value. It keeps up to 10 pairs in two
  parallel lists. When an insertion would pass that threshold it moves, once and for good, to a
  hash table.
- **The subtree guard** of the leaf unpackers. A collection-validating unpacker refuses to be used
  while a subtree reader it handed out is still open.

## Modules

- `Common` (common.dfy): machine integers, `Option`, `Result`, and the wrapping `int` increment
  that the dictionary version uses.
- `Values` (values.dfy): the value datatype and the dictionary representation. It also holds
  equality, hash codes and lookup. These are mutually recursive: map equality calls
  `TryGetValue` on the other map.
- `Equality` (equality.dfy): what equality and hashing mean.
- `Lifting` (lifting.dfy): `IsTypeOf` and the kind tests.
- `Conversions` (conversions.dfy): the accessors, `FromObject` and `ToObject`.
- `Packing` (packing.dfy): `PackToMessage`.
- `Dictionary` (dictionary.dfy): the dictionary operations.
- `DictionaryProperties` (dictionary_props.dfy): what those operations guarantee.
- `SubtreeGuard` (subtree.dfy): the unpacker guard.

## Modelling decisions

- **Value representation.** A value is `Nil`, a `Scalar(code, payload)`, or a handle: `Raw`,
  `List` or `Map`. The source struct stores a type code or handle next to a 64-bit `_value`.
  - Handles keep `_value` at 0, because every handle constructor starts from a fresh struct.
    `Values.RawPayload` recovers that field.
  - Signed integers are stored sign-extended to 64 bits (two's complement). The constructors are
    not part of this model. This choice is consistent with the `_value < 0x80` style bounds of
    `IsTypeOf`.
- **Integer equality follows the code.** Two integers are equal when their 64-bit payloads are
  equal, not when their mathematical values are. The two notions agree for values that fit a
  common type. They differ only by multiples of 2^64, so `sbyte` -1 equals `ulong` 2^64-1
  (`Lifting.IntegerEqualityIsModular`, `Lifting.MinusOneAgainstUnsigned`).
- **Lifting follows the code.** `IsTypeOf` only widens, within the signedness limits of the
  stored width. It never narrows: a `short` holding 5 does not read as a `byte`.
- **Two versions of some definitions.** Where the code is evidently wrong (see Findings), the
  model keeps an as-written definition and a corrected one. The rest of the model uses the
  corrected one.
- **Collaborators are parameters.**
  - The hash codes of `MessagePackString` and of a `KeyValuePair` are a `Hashing` record.
  - The text codec of `MessagePackString` is a pair of functions `encode`/`decode`.
  - `IsCollectionHeader` and `VerifyMode` are booleans passed in.
- **The hash table.** `Dictionary<MessagePackObject, MessagePackObject>` is modelled as its
  entries in enumeration order. A probe finds the first entry whose hash code equals the probe's
  and whose stored key equals the probe (stored key on the left). A new pair is appended.
  - .NET compares only `hashCode & 0x7FFFFFFF`, and walks a bucket chain newest entry first. The
    model compares all 32 bits and takes the earliest entry.
  - Under `Values.DictInvariant` with map-free probes at most one entry matches, so the choice of
    entry is not observable (`Equality.SharedMatch`). Two hash codes that differ only in the top
    bit are treated as different.
- **Two unpacker classes per policy.** The stream-based and byte-array-based unpacker of each
  policy contain the same guard code. One model covers both.
- **`Dictionary.Aligned`.** This is the class invariant that every operation needs: the two lists
  have equal length. `Values.DictInvariant` adds the facts the mutators keep:
  - no nil key;
  - no two equal keys;
  - at most 10 pairs in list mode.

## Model

| member | source | states |
|---|---|---|
| Common.WrappingIncrement | cli/src/MsgPack/MessagePackObjectDictionary.cs:860-863 | `unchecked { _version++; }` always changes the version, wrapping from `int.MaxValue` to `int.MinValue` |
| Values.Count | cli/src/MsgPack/MessagePackObjectDictionary.cs:64-78 | the number of pairs: the key list's length in list mode and the table's size in hash mode; `Values.Pairs` enumerates exactly that many |
| Values.Pairs | cli/src/MsgPack/MessagePackObjectDictionary.cs:64-78 | enumeration yields at most `Count` pairs, and exactly `Count` when the two lists have equal length |
| Values.DictInvariant | cli/src/MsgPack/MessagePackObjectDictionary.cs:482-496 | `AssertInvariant` (equal list lengths, keys pairwise distinct under the comparer) plus what the mutators keep: no nil key, at most 10 pairs in list mode, and no two entries of the hash table with equal hash codes and equal keys; kept by DictionaryProperties.ApplyPreservesInvariant |
| Values.HashU64 | cli/src/MsgPack/MessagePackObject.Utilities.cs:305-308 | `UInt64.GetHashCode` XORs the high 32 bits into the low 32 bits, so a payload below 2^32 hashes as itself |
| Values.Hash | cli/src/MsgPack/MessagePackObject.Utilities.cs:297-338 | nil hashes to 0, a scalar as its 64-bit payload, a list or map as the XOR of its items' or pairs' hash codes, a raw by its collaborator; Equality.ScalarHashes, Equality.ListHashIsXorFold and Equality.EqualsImpliesEqualHash characterise it |
| Values.HashSeq | cli/src/MsgPack/MessagePackObject.Utilities.cs:310-317 | the `Aggregate` XOR fold over a list's items; Equality.HashSeqAppend and Equality.HashSeqPointwise characterise it |
| Values.HashDict | cli/src/MsgPack/MessagePackObject.Utilities.cs:319-327 | the XOR fold over a map's pairs, each hashed by the `KeyValuePair` collaborator, in either mode |
| Values.ScalarEquals | cli/src/MsgPack/MessagePackObject.Utilities.cs:214-232 | the scalar branch of `Equals`, under the as-written or the corrected integer rule; Equality.IntegerEqualityAsWritten, Equality.IntegerEqualityIntended and Equality.NonIntegerScalarEquality characterise it |
| Values.EqualsBy | cli/src/MsgPack/MessagePackObject.Utilities.cs:203-292 | `Equals(MessagePackObject)` with the stored value on the left: nil only against nil, scalars by type and bits, lists by `SequenceEqual`, maps by count and `TryGetValue`, raws by bytes; Equality.EqualsIsCanonical characterises the corrected rule as equality of canonical forms |
| Values.SeqEqualsBy | cli/src/MsgPack/MessagePackObject.Utilities.cs:236-246 | `SequenceEqual`; Equality.SeqEqualsPointwise states it is equal length plus element-wise equality |
| Values.MapEqualsBy | cli/src/MsgPack/MessagePackObject.Utilities.cs:250-279 | the map branch; Equality.MapEquality states it is equal count plus every left pair found with an equal value |
| Values.LookupBy | cli/src/MsgPack/MessagePackObjectDictionary.cs:723-752 | `TryGetValue`'s search: the value stored under the slot the list search or the hash probe finds, which is no larger than the dictionary; DictionaryProperties.LookupModesAgree relates the two modes |
| Values.Equals | cli/src/MsgPack/MessagePackObject.Utilities.cs:203-292 | `EqualsBy` under the corrected integer rule; the dictionary and the rest of the model use it, and Equality.EqualsIsCanonical characterises it |
| Values.Lookup | cli/src/MsgPack/MessagePackObjectDictionary.cs:723-752 | `LookupBy` under the corrected integer rule; DictionaryProperties.LookupModesAgree relates its two modes |
| Values.FindIndexBy | cli/src/MsgPack/MessagePackObjectDictionary.cs:736 | `_keys.FindIndex(item => item == key)` returns -1 or a position in the list; Equality.FindIndexIsFirstMatch states it is the first stored key equal to the probe |
| Values.FindEntryBy | cli/src/MsgPack/MessagePackObjectDictionary.cs:750 | the hash probe returns -1 or a position in the table; Equality.FindEntryIsFirstMatch states it is the first entry with the probe's hash code and an equal key |
| Equality.NilEquality | cli/src/MsgPack/MessagePackObject.Utilities.cs:205-212 | nil equals only nil, in either argument order |
| Equality.IntegerEqualityAsWritten | cli/src/MsgPack/MessagePackObject.Utilities.cs:214-232 | as written, an integer on the left equals any non-nil value whose `_value` field has the same bits, whatever its kind |
| Equality.IntegerEqualityIntended | cli/src/MsgPack/MessagePackObject.Utilities.cs:214-232 | corrected: an integer equals exactly the integers of any width with the same 64-bit payload |
| Equality.NonIntegerScalarEquality | cli/src/MsgPack/MessagePackObject.Utilities.cs:218-229 | a Boolean, `float` or `double` equals only a scalar with the same type code and the same bits |
| Equality.ListEquality | cli/src/MsgPack/MessagePackObject.Utilities.cs:236-246 | two lists are equal iff they have the same length and are equal element by element, in order |
| Equality.SeqEqualsPointwise | cli/src/MsgPack/MessagePackObject.Utilities.cs:245 | `SequenceEqual` is equivalent to equal length plus element-wise equality |
| Equality.MapEquality | cli/src/MsgPack/MessagePackObject.Utilities.cs:250-279 | two maps are equal iff they have the same count and every pair of the left map has its key found in the right map with an equal value |
| Equality.PairsFoundPointwise | cli/src/MsgPack/MessagePackObject.Utilities.cs:264-276 | the `foreach` over a list-mode map succeeds iff every one of its pairs is found in the other map |
| Equality.EntriesFoundPointwise | cli/src/MsgPack/MessagePackObject.Utilities.cs:264-276 | the same for a hash-mode map |
| Equality.HandleKinds | cli/src/MsgPack/MessagePackObject.Utilities.cs:236-287 | a raw, list or map equals only a value of the same kind, and raws compare by their bytes |
| Equality.FindIndexIsFirstMatch | cli/src/MsgPack/MessagePackObjectDictionary.cs:736 | `FindIndex` returns the first stored key equal to the probe, or -1 iff there is none |
| Equality.FindEntryIsFirstMatch | cli/src/MsgPack/MessagePackObjectDictionary.cs:750 | a hash probe finds the first entry with the probe's hash code whose key equals the probe, or -1 iff there is none |
| Equality.EqualsReflexive | cli/src/MsgPack/MessagePackObject.Utilities.cs:203-292 | every value whose nested maps keep the dictionary invariant equals itself |
| Equality.OwnPairFound | cli/src/MsgPack/MessagePackObject.Utilities.cs:264-276 | every pair of a valid map is found in that same map with an equal value |
| Equality.ScalarHashes | cli/src/MsgPack/MessagePackObject.Utilities.cs:300-308 | nil hashes to 0, and a scalar hashes as its 64-bit payload whatever its declared type |
| Equality.HashSeqAppend | cli/src/MsgPack/MessagePackObject.Utilities.cs:315 | the XOR fold over a concatenation is the XOR of the folds over the parts |
| Equality.ListHashIsXorFold | cli/src/MsgPack/MessagePackObject.Utilities.cs:310-317 | an empty list hashes to 0, and appending an item XORs its hash code in |
| Equality.HashSeqPointwise | cli/src/MsgPack/MessagePackObject.Utilities.cs:315 | lists whose items hash equally position by position hash equally |
| Equality.EqualsImpliesEqualHash | cli/src/MsgPack/MessagePackObject.Utilities.cs:203-338 | under the corrected equality, equal values have equal hash codes (right operand without maps) |
| Equality.Canon | cli/src/MsgPack/MessagePackObject.Utilities.cs:214-246 | the canonical form re-tags every integer as `long` and keeps nil, lists, maps and their lengths apart |
| Equality.CanonKeepsMapFree | cli/src/MsgPack/MessagePackObject.Utilities.cs:236-246 | canonicalising a value neither adds nor removes maps |
| Equality.EqualsIsCanonical | cli/src/MsgPack/MessagePackObject.Utilities.cs:203-292 | under the corrected rule, two values one of which holds no map are equal iff their canonical forms are identical |
| Equality.SharedMatch | cli/src/MsgPack/MessagePackObject.Utilities.cs:203-292 | two values equal to the same map-free value are equal to each other in both orders |
| Equality.ZeroEqualsEveryHandleAsWritten | cli/src/MsgPack/MessagePackObject.Utilities.cs:214-232 | as written, an integer 0 equals every raw, list and map |
| Equality.AsWrittenEqualityBreaksHashing | cli/src/MsgPack/MessagePackObject.Utilities.cs:214-232 | as written, `int` 0 equals the list `[1]` although their hash codes differ |
| Equality.IntendedIntegerNeverEqualsHandle | cli/src/MsgPack/MessagePackObject.Utilities.cs:214-232 | under the corrected equality, no integer equals a raw, list or map |
| Lifting.LiftBy | cli/src/MsgPack/MessagePackObject.Utilities.cs:477-549 | the integer rows of the lifting table, given the bound the `long` and `ulong` rows use; Lifting.LiftingIsExact states what it accepts under the 2^63 bound |
| Lifting.IsTypeOfBy | cli/src/MsgPack/MessagePackObject.Utilities.cs:454-559 | nil answers null and only nil does; handles answer by kind, scalars by the lifting table |
| Lifting.IsTypeOf | cli/src/MsgPack/MessagePackObject.Utilities.cs:454-559 | `IsTypeOfBy` with the corrected 2^63 bound; the model's accessors use it, and Lifting.LiftingIsExact and Lifting.NonIntegerRows characterise it |
| Lifting.IsTypeOfAsWritten | cli/src/MsgPack/MessagePackObject.Utilities.cs:454-559 | `IsTypeOf` with the evaluated `0x80000000 << 32` bound; Lifting.AsWrittenLiftingDiffers states where it differs from the corrected table |
| Lifting.EncodeDecode | cli/src/MsgPack/MessagePackObject.Utilities.cs:477-559 | the sign-extended payload of an in-range integer gives back that integer |
| Lifting.EvaluatedLongBoundIsTwoTo31 | cli/src/MsgPack/MessagePackObject.Utilities.cs:537 | `0x80000000 << 32` on a `uint` evaluates to 2^31, because the shift count is masked to 0 |
| Lifting.LiftingIsExact | cli/src/MsgPack/MessagePackObject.Utilities.cs:477-559 | with the corrected 2^63 bound, an integer reads as another integer type iff that type is at least as wide and the value fits the stored width with the target's signedness |
| Lifting.LiftingIsSound | cli/src/MsgPack/MessagePackObject.Utilities.cs:477-559 | an integer accepted for a type fits that type |
| Lifting.NonIntegerRows | cli/src/MsgPack/MessagePackObject.Utilities.cs:550-559 | `double` accepts `float` and `double`, `float` and `bool` accept only themselves, and a scalar is never a non-primitive type |
| Lifting.AsWrittenLiftingDiffers | cli/src/MsgPack/MessagePackObject.Utilities.cs:530-549 | as written, the table differs from the corrected one exactly for `long` to `ulong` and `ulong` to `long` with payload in [2^31, 2^63), where it answers false |
| Lifting.AsWrittenRejectsFittingULong | cli/src/MsgPack/MessagePackObject.Utilities.cs:537 | as written, the `ulong` 2^32 is refused as a `long` although it fits |
| Lifting.AsWrittenRejectsFittingLong | cli/src/MsgPack/MessagePackObject.Utilities.cs:548 | as written, the `long` 2^32 is refused as a `ulong` although it is non-negative |
| Lifting.IsRaw | cli/src/MsgPack/MessagePackObject.Utilities.cs:566-569 | a value is raw iff `IsTypeOf(MessagePackString)` is true, and then it also reads as `string` and `byte[]` |
| Lifting.IsList | cli/src/MsgPack/MessagePackObject.Utilities.cs:575-587 | a list reads as `IList<MessagePackObject>`, and the values that do are exactly the lists and the raws |
| Lifting.IsMap | cli/src/MsgPack/MessagePackObject.Utilities.cs:593-605 | a value is a map iff it reads as `IDictionary<MessagePackObject, MessagePackObject>` |
| Lifting.IntegerEqualityIsModular | cli/src/MsgPack/MessagePackObject.Utilities.cs:214-232 | two in-range integers of any types are equal iff their mathematical values agree modulo 2^64 |
| Lifting.SameIntegerAcrossWidths | cli/src/MsgPack/MessagePackObject.Utilities.cs:214-232 | the same integer stored at two widths gives equal values with equal hash codes |
| Lifting.MinusOneAgainstUnsigned | cli/src/MsgPack/MessagePackObject.Utilities.cs:214-232 | `sbyte` -1 does not equal `byte` 255 but does equal `ulong` 2^64-1 |
| Conversions.VerifyUnderlyingType | cli/src/MsgPack/MessagePackObject.Utilities.cs:996-1022 | the check passes iff `IsTypeOf` answers true; nil gets its own error, any other refusal is a type mismatch |
| Conversions.AsBinary | cli/src/MsgPack/MessagePackObject.Utilities.cs:819-829 | succeeds iff the value is raw, returning its bytes, and otherwise reports nil or a type mismatch |
| Conversions.AsEnumerable | cli/src/MsgPack/MessagePackObject.Utilities.cs:945-960 | succeeds iff the value is a list or raw: the items of a list, or one `byte` scalar per byte of a raw |
| Conversions.AsList | cli/src/MsgPack/MessagePackObject.Utilities.cs:966-974 | nil gives null; lists and raws give their items; anything else is a type mismatch |
| Conversions.AsDictionary | cli/src/MsgPack/MessagePackObject.Utilities.cs:980-990 | succeeds iff the value is a map, returning its dictionary, and otherwise reports nil or a type mismatch |
| Conversions.FromObject | cli/src/MsgPack/MessagePackObject.Utilities.cs:1035-1225 | fails iff the host type is unsupported; null wraps as nil and only null does; strings and character sequences are wrapped as their encoded bytes |
| Conversions.ToObject | cli/src/MsgPack/MessagePackObject.Utilities.cs:1231-1323 | nil unboxes to null and only nil does, and every value unboxes to a type that `FromObject` accepts |
| Conversions.ToObjectRoundTrip | cli/src/MsgPack/MessagePackObject.Utilities.cs:1035-1323 | unboxing a value and wrapping the result again gives back the same value, given a codec whose decoding encodes back to the same bytes |
| Conversions.FromObjectThenAccessor | cli/src/MsgPack/MessagePackObject.Utilities.cs:819-1225 | wrapping a host object and reading it through the matching accessor gives back its bytes, items or dictionary |
| Packing.PackToMessage | cli/src/MsgPack/MessagePackObject.Utilities.cs:645-811 | a null packer fails; nil packs as nil; a Boolean packs its truth; other scalars use the strict overload iff strict options are given; handles are packed as objects with the options |
| Packing.PackCallIdentifiesValue | cli/src/MsgPack/MessagePackObject.Utilities.cs:645-811 | two non-Boolean values that make the same packer call under the same options are the same value |
| Packing.BooleanPackIsNormalised | cli/src/MsgPack/MessagePackObject.Utilities.cs:799-803 | every non-zero Boolean payload packs as `true` |
| Packing.StrictnessOnlySelectsOverload | cli/src/MsgPack/MessagePackObject.Utilities.cs:667-797 | strictness changes only which numeric overload is called, never the type or payload passed |
| Dictionary.RemoveAt | cli/src/MsgPack/MessagePackObjectDictionary.cs:936-937 | `List.RemoveAt` keeps the elements before the index and shifts those after it down by one |
| Dictionary.Slot | cli/src/MsgPack/MessagePackObjectDictionary.cs:734-751 | a probe finds -1 or a position inside the dictionary |
| Dictionary.New | cli/src/MsgPack/MessagePackObjectDictionary.cs:254-258 | a new dictionary is empty, in list mode, at version 0 |
| Dictionary.WithCapacity | cli/src/MsgPack/MessagePackObjectDictionary.cs:267-285 | a negative capacity fails; otherwise the dictionary is empty and in list mode iff the capacity is at most 10 |
| Dictionary.CopyFromBy | cli/src/MsgPack/MessagePackObjectDictionary.cs:301-335 | a null source fails with its own error; any other failure is reported as a failure to copy |
| Dictionary.AddAll | cli/src/MsgPack/MessagePackObjectDictionary.cs:320-326 | the copy loop adds one pair per source pair, and a hash-mode start stays in hash mode |
| Dictionary.HashedAdd | cli/src/MsgPack/MessagePackObjectDictionary.cs:844-863 | the result is in hash mode, and a refused insertion changes nothing |
| Dictionary.AddCore | cli/src/MsgPack/MessagePackObjectDictionary.cs:787-864 | only a duplicate without overwrite fails, and then neither the pairs nor the version change; success bumps the version once; a fresh insertion adds exactly one pair; hash mode is kept |
| Dictionary.Set | cli/src/MsgPack/MessagePackObjectDictionary.cs:116-127 | a nil key fails and changes nothing; any other key is stored and the version changes |
| Dictionary.Add | cli/src/MsgPack/MessagePackObjectDictionary.cs:775-785 | a nil key fails; success adds one pair; a duplicate fails and keeps the pairs |
| Dictionary.Get | cli/src/MsgPack/MessagePackObjectDictionary.cs:99-115 | a nil key fails; otherwise returns the value the key looks up to, and fails with key-not-found iff there is none |
| Dictionary.TryGetValue | cli/src/MsgPack/MessagePackObjectDictionary.cs:723-752 | a nil key fails; otherwise reports whether the key is present, with its value when it is and nil when it is not |
| Dictionary.ContainsKey | cli/src/MsgPack/MessagePackObjectDictionary.cs:633-651 | the list search with `Enumerable.Contains` agrees with `TryGetValue`; a nil key fails |
| Dictionary.ContainsValue | cli/src/MsgPack/MessagePackObjectDictionary.cs:660-671 | true iff some stored value equals the given one |
| Dictionary.ContainsPair | cli/src/MsgPack/MessagePackObjectDictionary.cs:673-682 | true iff the key is present and the given value equals the stored one; a nil key fails |
| Dictionary.RemoveCore | cli/src/MsgPack/MessagePackObjectDictionary.cs:919-964 | removes iff the key is present and, when the value is checked, the stored value equals it; otherwise nothing changes; a removal drops one pair and bumps the version; the mode is kept |
| Dictionary.Remove | cli/src/MsgPack/MessagePackObjectDictionary.cs:907-917 | a nil key fails; otherwise returns whether the key was present, with nothing changed when it was not |
| Dictionary.RemovePair | cli/src/MsgPack/MessagePackObjectDictionary.cs:966-976 | a nil key fails; otherwise removes iff the key is present with an equal stored value |
| Dictionary.Clear | cli/src/MsgPack/MessagePackObjectDictionary.cs:999-1017 | the dictionary becomes empty in the same mode, and the version is bumped |
| DictionaryProperties.FindIndexAppend | cli/src/MsgPack/MessagePackObjectDictionary.cs:795-800 | after a key is appended, the list search finds what it found before, or the new key |
| DictionaryProperties.FindEntryAppend | cli/src/MsgPack/MessagePackObjectDictionary.cs:844-858 | the same for a pair added to the hash table |
| DictionaryProperties.FindEntrySameKeys | cli/src/MsgPack/MessagePackObjectDictionary.cs:846 | overwriting values in the hash table moves no probe |
| DictionaryProperties.SlotModesAgree | cli/src/MsgPack/MessagePackObjectDictionary.cs:832-838 | the list search and the hash probe over the same pairs find the same position (probe without maps) |
| DictionaryProperties.LookupModesAgree | cli/src/MsgPack/MessagePackObjectDictionary.cs:723-752 | the list and hash representations of the same pairs give the same lookup result (probe without maps) |
| DictionaryProperties.AsWrittenModesDisagree | cli/src/MsgPack/MessagePackObjectDictionary.cs:723-752 | as written, the key `0` is found by the list search for the probe `[1]` but not by the hash probe |
| DictionaryProperties.AsWrittenIntegerKeyMatchesBoolean | cli/src/MsgPack/MessagePackObjectDictionary.cs:736 | as written, a dictionary holding the `int` key 1 finds it for the probe `true` in both modes, where the corrected equality finds nothing |
| DictionaryProperties.HashedAddStoresValue | cli/src/MsgPack/MessagePackObjectDictionary.cs:844-863 | after a successful hash-mode insertion a well-formed key looks up to the inserted value |
| DictionaryProperties.AddCoreStoresValue | cli/src/MsgPack/MessagePackObjectDictionary.cs:787-864 | after a successful insertion a well-formed key looks up to the inserted value; for keys without maps, it fails iff the key is present and overwriting is off |
| DictionaryProperties.SetThenGet | cli/src/MsgPack/MessagePackObjectDictionary.cs:97-127 | for a well-formed key, the setter followed by the getter gives back the value set |
| DictionaryProperties.HashedAddKeepsOthers | cli/src/MsgPack/MessagePackObjectDictionary.cs:844-863 | a hash-mode insertion keeps the value of every other present key and adds no other key |
| DictionaryProperties.AddCoreKeepsOthers | cli/src/MsgPack/MessagePackObjectDictionary.cs:787-864 | an insertion keeps the value of every other present key and adds no key other than the inserted one |
| DictionaryProperties.HashedAddPreservesInvariant | cli/src/MsgPack/MessagePackObjectDictionary.cs:844-863 | a hash-mode insertion of a non-nil key keeps keys non-nil and pairwise distinct |
| DictionaryProperties.MigrationPreservesInvariant | cli/src/MsgPack/MessagePackObjectDictionary.cs:832-841 | moving valid lists into a hash table gives a valid table |
| DictionaryProperties.ListedAddPreservesInvariant | cli/src/MsgPack/MessagePackObjectDictionary.cs:793-816 | below 10 pairs, a list-mode insertion of a non-nil key keeps the invariant, whether it appends, overwrites or fails |
| DictionaryProperties.AddCorePreservesInvariant | cli/src/MsgPack/MessagePackObjectDictionary.cs:787-864 | an insertion of a non-nil key keeps the invariant, whether it succeeds or fails |
| DictionaryProperties.RemoveCorePreservesInvariant | cli/src/MsgPack/MessagePackObjectDictionary.cs:919-964 | a removal keeps the invariant |
| DictionaryProperties.FindIndexRemoveAt | cli/src/MsgPack/MessagePackObjectDictionary.cs:925-937 | after `RemoveAt(i)` the list search for any probe finds the same key, shifted down when it was past `i`, and still finds nothing when it found nothing |
| DictionaryProperties.FindEntryRemoveAt | cli/src/MsgPack/MessagePackObjectDictionary.cs:940-958 | the same for an entry removed from the hash table |
| DictionaryProperties.ListedRemoveKeepsOthers | cli/src/MsgPack/MessagePackObjectDictionary.cs:925-937 | removing slot `i` from the lists keeps every other key's value and adds no key |
| DictionaryProperties.HashedRemoveKeepsOthers | cli/src/MsgPack/MessagePackObjectDictionary.cs:940-958 | the same in hash mode |
| DictionaryProperties.RemoveCoreKeepsOthers | cli/src/MsgPack/MessagePackObjectDictionary.cs:919-964 | a removal keeps the value of every key found at another slot and adds no key |
| DictionaryProperties.RemoveCoreRemovesKey | cli/src/MsgPack/MessagePackObjectDictionary.cs:919-964 | in a valid dictionary, after `RemoveCore` reports a removal a key without maps is no longer found |
| DictionaryProperties.RemoveRemovesKey | cli/src/MsgPack/MessagePackObjectDictionary.cs:907-964 | in a valid dictionary, after `Remove` of a key without maps the key is absent, every key found at another slot keeps its value, and no key appears |
| DictionaryProperties.RemovePairRemovesKey | cli/src/MsgPack/MessagePackObjectDictionary.cs:919-976 | in a valid dictionary, for a key without maps: after `Remove(pair)` reports a removal the key is absent; when it reports none the dictionary is unchanged |
| DictionaryProperties.RemovePairKeepsOthers | cli/src/MsgPack/MessagePackObjectDictionary.cs:919-976 | `Remove(pair)` keeps the value of every key found at another slot and adds no key |
| DictionaryProperties.ApplyPreservesInvariant | cli/src/MsgPack/MessagePackObjectDictionary.cs:97-1017 | every public mutator keeps the invariant and never returns from hash mode to list mode |
| DictionaryProperties.RunPreservesInvariant | cli/src/MsgPack/MessagePackObjectDictionary.cs:97-1017 | every sequence of public mutations keeps the invariant, and hash mode once reached is kept |
| DictionaryProperties.ModeAfterInsert | cli/src/MsgPack/MessagePackObjectDictionary.cs:791-842 | from list mode, an insertion stays in list mode iff there are fewer than 10 pairs or it overwrites a present key |
| DictionaryProperties.DuplicateAddAtThresholdSwitches | cli/src/MsgPack/MessagePackObjectDictionary.cs:818-858 | `Add` of a present key at exactly 10 pairs switches to hash mode and then fails, with pairs and version unchanged |
| DictionaryProperties.AddAllPreservesInvariant | cli/src/MsgPack/MessagePackObjectDictionary.cs:320-326 | the copy loop with nil keys refused keeps the invariant |
| DictionaryProperties.CopyFromIsWellFormed | cli/src/MsgPack/MessagePackObjectDictionary.cs:301-335 | a successful copy with nil keys refused satisfies the invariant, whatever the source held |
| DictionaryProperties.AddAllStaysListed | cli/src/MsgPack/MessagePackObjectDictionary.cs:310-326 | a copy of at most 10 pairs into list mode stays in list mode |
| DictionaryProperties.CopyFromModeFollowsCount | cli/src/MsgPack/MessagePackObjectDictionary.cs:310-326 | a successful copy holds one pair per source pair, and is in list mode iff there are at most 10 |
| DictionaryProperties.CopyFromAsWrittenAdmitsNilKey | cli/src/MsgPack/MessagePackObjectDictionary.cs:320-326 | as written, copying a source with a nil key succeeds and breaks the invariant; with nil refused the copy fails |
| SubtreeGuard.FastReadSubtreeCore | src/MsgPack/Unpacker.Leaf.cs:43-46 | the fast policy reads a subtree with the unpacker itself; it stands alone, because the base-class `InternalReadSubtree` that calls it is not part of this model |
| SubtreeGuard.ReadSubtreeCore | src/MsgPack/Unpacker.Leaf.cs:74-77 | the validating policy always hands out a separate subtree reader |
| SubtreeGuard.InternalReadSubtree | src/MsgPack/Unpacker.Leaf.cs:57-72 | fails when not at a collection header, which is checked first, and fails when a subtree is open; success locks the parent |
| SubtreeGuard.EndReadSubtree | src/MsgPack/Unpacker.Leaf.cs:79-83 | ending a subtree unlocks the parent |
| SubtreeGuard.EnsureNotInSubtreeMode | src/MsgPack/Unpacker.Leaf.cs:85-92 | the mode check comes first; in streaming mode the call succeeds iff no subtree is open |
| SubtreeGuard.BeginSkipCore | src/MsgPack/Unpacker.Leaf.cs:94-100 | a skip succeeds iff no subtree is open |
| SubtreeGuard.Errors | src/MsgPack/Unpacker.Leaf.cs:57-100 | a sequence of calls reports one outcome per call |
| SubtreeGuard.OpenSubtreeLocksParent | src/MsgPack/Unpacker.Leaf.cs:57-100 | while a subtree is open, every call other than ending it fails and the parent stays locked |
| SubtreeGuard.ReadThenEnd | src/MsgPack/Unpacker.Leaf.cs:57-100 | a skip fails right after a subtree is opened, and succeeds once the subtree is ended |

## Left out

- Serialization of both classes is not modelled: `GetObjectData`, the serialization constructor
  and `OnDeserialization`. It is runtime serialization plumbing.
- `ToString`, `AsString(Encoding)`, `AsStringUtf8` and `AsStringUtf16` are not modelled. They need
  text encodings. The model treats text only through the `encode`/`decode` parameters.
- The explicit and implicit conversion operators and the typed scalar accessors (`AsBoolean`,
  `AsInt32`, ...) are not modelled. The host side of a scalar is abstracted as
  `HostPrimitive(code, payload)`.
- `VerifyUnderlyingType` with a non-null parameter name is not modelled. That path throws
  `ArgumentException` instead of `InvalidOperationException`, and only the conversion operators
  use it.
- `IsTypeOf(null)`, which throws `ArgumentNullException`, is not modelled. `Requested` has no null
  type.
- Lifting.IsTypeOf: enum types are not modelled. `Type.GetTypeCode` maps an enum type to the
  code of its underlying integer type (MessagePackObject.Utilities.cs:477), so an integer scalar
  may read as an enum. The model's `OtherType` answers false for every scalar.
- Lifting.IsTypeOf: types are abstracted into the cases of `Requested`. `OtherType` stands for
  any type the stored handle is not an instance of. Other base types of a handle, such as the
  non-generic `IEnumerable`, are not enumerated.
- Lifting.IsRaw: the model takes `MessagePackString` to be an `IEnumerable<byte>`, so every raw
  handle is raw. `MessagePackString` is not part of this model.
- The non-generic `IDictionary`/`ICollection` adapters of the dictionary are not modelled. This
  includes `ValidateObjectArgument`. They convert arguments and then call the same `AddCore` and
  `RemoveCore`.
- Enumerators, `KeySet`, `ValueCollection` and `CopyTo` are not modelled. They read the same
  pairs that `Values.Pairs` exposes.
- The hash table's bucket layout is not modelled. Only its observable behaviour is: a probe finds
  an entry with an equal hash code and an equal key. Its enumeration order is left unspecified
  as a sequence.
- The bytes the `Packer` writes are not modelled. `Packing.PackToMessage` stops at the call it
  makes. `ObjectPackingOptions` beyond strictness is not modelled either.
- Conversions.FromObject: a host `IDictionary<MessagePackObject, MessagePackObject>` is taken to
  be a `MessagePackObjectDictionary`. The source wraps any such dictionary by reference
  (MessagePackObject.Utilities.cs:105-110 and 1172-1174), whatever its class, so a map value may
  use another dictionary's lookup. That is not modelled.
- Conversions.FromObject, Conversions.AsEnumerable and Conversions.AsDictionary: handles are
  references in the source. An `IList` or `IDictionary` handed to `FromObject` is stored, not
  copied (lines 95-110 and 1160-1175), and `AsEnumerable` and `AsDictionary` return the stored
  object (lines 956 and 989). Later mutation through any alias changes the value. The model
  treats every handle as an immutable snapshot. The source copies only an `IEnumerable` that is
  not an `IList` (line 1169) and the result of `AsList` (line 973).
- The base-class members are not modelled: `InternalReadSubtree`, `EnsureNotInSubtreeMode` and
  `BeginSkipCore` of the fast policy, `base.EndReadSubtree`, and `DefaultByteArrayUnpacker`.
  They are not part of the guard.
- Dictionary probes use the corrected equality, not the as-written `item == key`
  (MessagePackObjectDictionary.cs:736 and 795). As written, a dictionary holding the `int` key 1
  answers the probe `true` and refuses `Add(true, v)` as a duplicate in both modes (the same holds
  for `int` 0 against `false`); the model finds no such key and inserts the pair.
  DictionaryProperties.AsWrittenIntegerKeyMatchesBoolean and
  DictionaryProperties.AsWrittenModesDisagree state the as-written behaviour. The members this
  affects:
- Dictionary.AddCore: probes with the corrected equality, for the reason above.
- Dictionary.Add: probes with the corrected equality, for the reason above.
- Dictionary.Set: probes with the corrected equality, for the reason above.
- Dictionary.Get: probes with the corrected equality, for the reason above.
- Dictionary.TryGetValue: probes with the corrected equality, for the reason above.
- Dictionary.ContainsKey: probes with the corrected equality, for the reason above.
- Dictionary.ContainsValue: compares values with the corrected equality, for the reason above.
- Dictionary.ContainsPair: looks keys up and compares values with the corrected equality, for the
  reason above.
- Dictionary.RemoveCore: probes with the corrected equality, for the reason above.
- Dictionary.Remove: probes with the corrected equality, for the reason above.
- Dictionary.RemovePair: probes with the corrected equality, for the reason above.
- Dictionary.CopyFromBy: adds through `AddCore`, which probes with the corrected equality, for the
  reason above.
- Equality.EqualsImpliesEqualHash is proved only when the right operand contains no map. A map's
  hash code XORs the `KeyValuePair` hash codes, which are a collaborator parameter here.
- DictionaryProperties.LookupModesAgree requires a probe without maps, for the same reason.
- DictionaryProperties.SlotModesAgree requires a probe without maps, for the same reason.
- DictionaryProperties.AddCoreKeepsOthers requires a key and a probe without maps, for the same
  reason.
- DictionaryProperties.ModeAfterInsert requires a key without maps, for the same reason.
- DictionaryProperties.DuplicateAddAtThresholdSwitches requires a key without maps, for the same
  reason.
- DictionaryProperties.AddCoreStoresValue requires a well-formed key (every nested map keeps the
  dictionary invariant), and its second half, "fails iff the key is present and overwriting is
  off", requires a key without maps, for the same reason.
- DictionaryProperties.HashedAddStoresValue requires a well-formed key: the stored key must equal
  itself, which `Equality.EqualsReflexive` proves only for such keys.
- DictionaryProperties.SetThenGet requires a well-formed key, for the same reason.
- DictionaryProperties.RemoveCoreRemovesKey requires a key without maps. The proof that no second
  stored key equals the removed one goes through `Equality.SharedMatch`, which needs a map-free
  middle value, because equality of maps is not proved transitive.
- DictionaryProperties.RemoveRemovesKey requires a key without maps for "the key is absent", for
  the same reason.
- DictionaryProperties.RemovePairRemovesKey requires a key without maps for "the key is absent",
  for the same reason.
- Equality.EqualsReflexive requires every nested map to keep the dictionary invariant. A map
  holding a nil key, which only the as-written copy constructor can build, is outside it.
- Values.MapEqualsBy: a nil key in the left map makes the source throw, because the map branch of
  `Equals` calls `TryGetValue` on the other map (MessagePackObject.Utilities.cs:267), which throws
  `ArgumentNullException` for a nil key (MessagePackObjectDictionary.cs:725-728). The model looks
  the nil key up and answers instead. Only the as-written copy constructor can build such a map.
- Values.EqualsBy answers for such maps too, for the same reason.

## Findings

| source | as written | input that shows it | evidently intended | confidence | as-written member | corrected member |
|---|---|---|---|---|---|---|
| cli/src/MsgPack/MessagePackObject.Utilities.cs:214-232 | an integer on the left compares `_value` with any non-nil right operand, and every handle has `_value` 0 | `int` 0 equals the list `[1]` (and every raw, list and map), but their hash codes are 0 and 1; a dictionary holding key 0 finds it for the probe `[1]` in list mode but not in hash mode; `int` 1 also equals the Boolean `true` (payload 1, the same hash code), so a dictionary holding the key 1 finds it for the probe `true` and refuses `Add(true, v)` in both modes (DictionaryProperties.AsWrittenIntegerKeyMatchesBoolean) | an integer equals only integers with the same payload | not executed | Equality.AsWrittenEqualityBreaksHashing | Equality.EqualsImpliesEqualHash |
| cli/src/MsgPack/MessagePackObject.Utilities.cs:537 | `0x80000000 << 32` is a `uint` shift whose count is masked to 0, so the `long`/`ulong` bound is 2^31 | the `ulong` 2^32 asked as `long` answers false, although it fits | the bound 2^63, like 0x80, 0x8000 and 0x80000000 in the other rows | not executed | Lifting.AsWrittenRejectsFittingULong | Lifting.LiftingIsExact |
| cli/src/MsgPack/MessagePackObject.Utilities.cs:548 | the same masked shift in the `ulong` row | the `long` 2^32 asked as `ulong` answers false, although it is non-negative | the bound 2^63 | not executed | Lifting.AsWrittenRejectsFittingLong | Lifting.LiftingIsExact |
| cli/src/MsgPack/MessagePackObjectDictionary.cs:320-326 | the copy constructor hands every source pair to `AddCore`, whose nil-key check is only a contract assertion | a `Dictionary<MessagePackObject, MessagePackObject>` holding the pair (nil, 1) copies into a dictionary with a nil key, which `Add` and the indexer refuse | a nil key is refused, so the copy fails with "Failed to copy specified dictionary." | not executed | DictionaryProperties.CopyFromAsWrittenAdmitsNilKey | DictionaryProperties.CopyFromIsWellFormed |

=== FILE: common.dfy ===
/** Machine-width integer types and the failure-compatible wrappers shared by every module. */
module Common {

  /** An unsigned 8-bit integer (CLI `byte`). */
  type byte = x: int | 0 <= x < 0x100

  /** An unsigned 64-bit integer (CLI `ulong`): the raw payload of a scalar value. */
  type u64 = x: int | 0 <= x < 0x1_0000_0000_0000_0000

  /** A signed 32-bit integer (CLI `int`). */
  type int32 = x: int | -0x8000_0000 <= x < 0x8000_0000

  const TwoTo32: int := 0x1_0000_0000
  const TwoTo63: int := 0x8000_0000_0000_0000
  const TwoTo64: int := 0x1_0000_0000_0000_0000

  /** `unchecked { x++; }` on a CLI `int`: wraps from the maximum to the minimum. */
  function WrappingIncrement(x: int32): (r: int32)
    ensures r != x
    ensures x < 0x7fff_ffff ==> r == x + 1
    ensures x == 0x7fff_ffff ==> r == -0x8000_0000
  {
    if x == 0x7fff_ffff then -0x8000_0000 else x + 1
  }

  datatype Option<+T> = None | Some(value: T)

  datatype Result<+T, +E> = Ok(value: T) | Err(error: E)
}

=== FILE: conversions.dfy ===
/**
  The container accessors of `MessagePackObject` (`AsBinary`, `AsEnumerable`, `AsList`,
  `AsDictionary`), the type check they share, and boxing to and from host objects
  (`FromObject`, `ToObject`).
*/
module Conversions {
  import opened Common
  import opened Values
  import opened Lifting

  /** The exceptions of this part of the API. */
  datatype ConversionError =
    | NilConversion(target: Requested)   // "Do not convert nil MessagePackObject to T."
    | TypeMismatch(target: Requested)    // "Do not convert X MessagePackObject to T."
    | UnsupportedType                    // MessageTypeException: "Type 'X' is not supported."

  /**
    `VerifyUnderlyingType<T>(instance, null)`: `None` when the value may be read as `target`, else
    the exception thrown. Nil is reported by its own error before the type test is made.
  */
  function VerifyUnderlyingType(v: Value, target: Requested): (r: Option<ConversionError>)
    ensures r.None? <==> IsTypeOf(v, target) == Some(true)
    ensures v.Nil? ==> r == Some(NilConversion(target))
    ensures !v.Nil? && r.Some? ==> r.value == TypeMismatch(target)
  {
    if v.Nil? then
      Some(NilConversion(target))
    else if IsTypeOf(v, target) != Some(true) then
      Some(TypeMismatch(target))
    else
      None
  }

  /** `AsBinary`: the bytes of a raw value. */
  function AsBinary(v: Value): (r: Result<seq<byte>, ConversionError>)
    ensures r.Ok? <==> v.Raw?
    ensures v.Raw? ==> r.value == v.bytes
    ensures v.Nil? ==> r == Err(NilConversion(ByteArrayType))
    ensures !v.Nil? && !v.Raw? ==> r == Err(TypeMismatch(ByteArrayType))
  {
    var check := VerifyUnderlyingType(v, ByteArrayType);
    if check.Some? then
      Err(check.value)
    else
      // The source's `if ( this.IsNil ) return null;` after the check cannot be reached.
      assert !v.Nil?;
      Ok(v.bytes)
  }

  /** The bytes of a raw value, each wrapped as a `byte` scalar. */
  function ByteScalars(bytes: seq<byte>): (r: seq<Value>)
    ensures |r| == |bytes|
    ensures forall i :: 0 <= i < |r| ==> r[i] == Scalar(Byte, bytes[i])
  {
    seq(|bytes|, i requires 0 <= i < |bytes| => Scalar(Byte, bytes[i]))
  }

  /** `AsEnumerable`: the items of a list, or the bytes of a raw value as `byte` scalars. */
  function AsEnumerable(v: Value): (r: Result<seq<Value>, ConversionError>)
    ensures r.Ok? <==> v.List? || v.Raw?
    ensures v.List? ==> r.value == v.items
    ensures v.Raw? ==> |r.value| == |v.bytes|
                       && forall i :: 0 <= i < |v.bytes| ==> r.value[i] == Scalar(Byte, v.bytes[i])
    ensures v.Nil? ==> r == Err(NilConversion(ObjectListType))
    ensures !v.Nil? && !r.Ok? ==> r == Err(TypeMismatch(ObjectListType))
  {
    var check := VerifyUnderlyingType(v, ObjectListType);
    if check.Some? then
      Err(check.value)
    else if v.List? then
      Ok(v.items)
    else
      assert v.Raw?;
      Ok(ByteScalars(v.bytes))
  }

  /** `AsList`: like `AsEnumerable`, except that nil yields null (`None`) instead of failing. */
  function AsList(v: Value): (r: Result<Option<seq<Value>>, ConversionError>)
    ensures v.Nil? ==> r == Ok(None)
    ensures r.Ok? <==> v.Nil? || v.List? || v.Raw?
    ensures v.List? ==> r == Ok(Some(v.items))
    ensures v.Raw? ==> r.Ok? && r.value.Some? && |r.value.value| == |v.bytes|
    ensures !r.Ok? ==> r == Err(TypeMismatch(ObjectListType))
  {
    if v.Nil? then
      Ok(None)
    else
      match AsEnumerable(v)
      case Ok(items) => Ok(Some(items))
      case Err(e) => Err(e)
  }

  /** `AsDictionary`: the dictionary of a map value. */
  function AsDictionary(v: Value): (r: Result<Dict, ConversionError>)
    ensures r.Ok? <==> v.Map?
    ensures v.Map? ==> r.value == v.dict
    ensures v.Nil? ==> r == Err(NilConversion(ObjectDictionaryType))
    ensures !v.Nil? && !v.Map? ==> r == Err(TypeMismatch(ObjectDictionaryType))
  {
    var check := VerifyUnderlyingType(v, ObjectDictionaryType);
    if check.Some? then
      Err(check.value)
    else
      assert !v.Nil?;
      Ok(v.dict)
  }

  // ---------------------------------------------------------------------------------------------
  // Boxing.

  /** A boxed host object, classified by the `is` tests of `FromObject`. */
  datatype HostValue =
    | HostNull
    | HostPrimitive(code: TypeCode, payload: u64)   // a boxed primitive (or a non-null nullable of one)
    | HostBytes(bytes: seq<byte>)                  // byte[]
    | HostString(text: string)                     // string
    | HostByteSequence(bytes: seq<byte>)           // another IEnumerable<byte>
    | HostCharSequence(chars: seq<char>)           // another IEnumerable<char>
    | HostObjectList(items: seq<Value>)            // IList<MessagePackObject>
    | HostObjectSequence(items: seq<Value>)        // another IEnumerable<MessagePackObject>
    | HostObjectDictionary(dict: Dict)             // IDictionary<MessagePackObject, MessagePackObject>
    | HostUnsupported                              // anything else

  /**
    `FromObject`: wraps a host object. `encode` is the text encoding a `MessagePackString` applies to
    a wrapped string when its bytes are needed.
  */
  function FromObject(host: HostValue, encode: string -> seq<byte>): (r: Result<Value, ConversionError>)
    ensures r.Err? <==> host.HostUnsupported?
    ensures r.Err? ==> r.error == UnsupportedType
    ensures r.Ok? && r.value.Nil? <==> host.HostNull?
    ensures host.HostString? ==> r == Ok(Raw(encode(host.text)))
    ensures host.HostCharSequence? ==> r == Ok(Raw(encode(host.chars)))
  {
    match host
    case HostNull => Ok(Nil)
    case HostPrimitive(code, payload) => Ok(Scalar(code, payload))
    case HostBytes(bytes) => Ok(Raw(bytes))
    case HostString(text) => Ok(Raw(encode(text)))
    case HostByteSequence(bytes) => Ok(Raw(bytes))
    case HostCharSequence(chars) => Ok(Raw(encode(chars)))
    case HostObjectList(items) => Ok(List(items))
    case HostObjectSequence(items) => Ok(List(items))
    case HostObjectDictionary(dict) => Ok(Map(dict))
    case HostUnsupported => Err(UnsupportedType)
  }

  /**
    `ToObject`: the boxed underlying value. `decode` stands for `MessagePackString.TryGetString`:
    a raw value that decodes as text is returned as a string, otherwise as its bytes.
  */
  function ToObject(v: Value, decode: seq<byte> -> Option<string>): (r: HostValue)
    ensures r.HostNull? <==> v.Nil?
    ensures !r.HostUnsupported? && !r.HostByteSequence? && !r.HostCharSequence? && !r.HostObjectSequence?
  {
    match v
    case Nil => HostNull
    case Scalar(code, payload) => HostPrimitive(code, payload)
    case Raw(bytes) =>
      (match decode(bytes)
       case Some(text) => HostString(text)
       case None => HostBytes(bytes))
    case Map(dict) => HostObjectDictionary(dict)
    case List(items) => HostObjectList(items)
  }

  /** The text codec is faithful: decoding bytes to a string and encoding it again gives the bytes. */
  ghost predicate Faithful(encode: string -> seq<byte>, decode: seq<byte> -> Option<string>) {
    forall bytes :: decode(bytes).Some? ==> encode(decode(bytes).value) == bytes
  }

  /** Unboxing and re-wrapping gives back the same value, given a faithful codec. */
  lemma ToObjectRoundTrip(v: Value, encode: string -> seq<byte>, decode: seq<byte> -> Option<string>)
    requires Faithful(encode, decode)
    ensures FromObject(ToObject(v, decode), encode) == Ok(v)
  {
    if v.Raw? && decode(v.bytes).Some? {
      assert encode(decode(v.bytes).value) == v.bytes;
    }
  }

  /** Wrapping a host object and reading it back through the matching accessor gives its contents. */
  lemma FromObjectThenAccessor(host: HostValue, encode: string -> seq<byte>)
    ensures host.HostBytes? ==> AsBinary(FromObject(host, encode).value) == Ok(host.bytes)
    ensures host.HostByteSequence? ==> AsBinary(FromObject(host, encode).value) == Ok(host.bytes)
    ensures host.HostString? ==> AsBinary(FromObject(host, encode).value) == Ok(encode(host.text))
    ensures host.HostObjectList? ==> AsList(FromObject(host, encode).value) == Ok(Some(host.items))
    ensures host.HostObjectSequence? ==> AsEnumerable(FromObject(host, encode).value) == Ok(host.items)
    ensures host.HostObjectDictionary? ==> AsDictionary(FromObject(host, encode).value) == Ok(host.dict)
    ensures host.HostNull? ==> AsList(FromObject(host, encode).value) == Ok(None)
  {
  }
}

=== FILE: dictionary.dfy ===
/**
  `MessagePackObjectDictionary`: a map from `MessagePackObject` keys to values that starts as two
  parallel lists and switches, once and for good, to a hash table when an insertion would take it
  past 10 pairs. The representation (`Values.Dict`) is shared with the value model.
*/
module Dictionary {
  import opened Common
  import opened Values
  import opened Equality

  /** `_threashold`: the most pairs the list representation holds. */
  const Threshold: nat := 10

  datatype DictError =
    | KeyIsNil            // ArgumentNullException: "Key cannot be nil."
    | KeyNotFound         // KeyNotFoundException from the indexer getter
    | DuplicateKey        // ArgumentException: "Key '...' already exists in this dictionary."
    | NegativeCapacity    // ArgumentOutOfRangeException("initialCapacity")
    | SourceIsNull        // ArgumentNullException("dictionary")
    | CopyFailed          // ArgumentException: "Failed to copy specified dictionary."

  /** The dictionary after a call, and what the call returned or threw. */
  datatype Outcome<+T> = Outcome(state: Dict, result: Result<T, DictError>)

  /** The parallel lists have the same length; every state the class reaches satisfies this. */
  predicate Aligned(d: Dict) {
    d.table.Listed? ==> |d.table.keys| == |d.table.values|
  }

  function RemoveAt<T>(s: seq<T>, i: nat): (r: seq<T>)
    requires i < |s|
    ensures |r| == |s| - 1
    ensures forall j :: 0 <= j < i ==> r[j] == s[j]
    ensures forall j :: i <= j < |r| ==> r[j] == s[j + 1]
  {
    s[..i] + s[i + 1..]
  }

  /** The position a probe finds: `FindIndex` on the key list, or the hash-table slot. */
  function Slot(d: Dict, probe: Value, h: Hashing): (i: int)
    ensures -1 <= i < Count(d)
  {
    match d.table
    case Listed(keys, _) => FindIndex(keys, probe, h)
    case Hashed(entries) => FindEntry(entries, probe, h)
  }

  // ---------------------------------------------------------------------------------------------
  // Construction.

  /** The parameterless constructor: empty lists. */
  function New(): (d: Dict)
    ensures d.table.Listed? && Count(d) == 0 && d.version == 0
  {
    Dict(Listed([], []), 0)
  }

  /** The capacity constructor: the capacity only chooses the representation. */
  function WithCapacity(capacity: int32): (r: Result<Dict, DictError>)
    ensures r.Err? <==> capacity < 0
    ensures r.Err? ==> r.error == NegativeCapacity
    ensures r.Ok? ==> Count(r.value) == 0 && r.value.version == 0
    ensures r.Ok? ==> (r.value.table.Listed? <==> capacity <= Threshold)
  {
    if capacity < 0 then Err(NegativeCapacity)
    else if capacity <= Threshold then Ok(Dict(Listed([], []), 0))
    else Ok(Dict(Hashed([]), 0))
  }

  /**
    The copy constructor over the source's pairs in enumeration order (`None` is a null source).
    The representation is chosen by the source's count; each pair is then added without
    overwriting, and a failure to add is reported as a failure to copy. `rejectNil` chooses
    whether a nil key counts as such a failure.
  */
  function CopyFromBy(rejectNil: bool, source: Option<seq<Entry>>, h: Hashing): (r: Result<Dict, DictError>)
    ensures source.None? <==> r == Err(SourceIsNull)
    ensures r.Err? ==> r.error == SourceIsNull || r.error == CopyFailed
    ensures r.Ok? ==> Aligned(r.value)
  {
    match source
    case None => Err(SourceIsNull)
    case Some(pairs) =>
      var start := if |pairs| <= Threshold then Dict(Listed([], []), 0) else Dict(Hashed([]), 0);
      match AddAll(rejectNil, start, pairs, h)
      case Ok(d) => Ok(d)
      case Err(_) => Err(CopyFailed)
  }

  /** The copy constructor as written: a nil key is added like any other. */
  function CopyFromAsWritten(source: Option<seq<Entry>>, h: Hashing): Result<Dict, DictError> {
    CopyFromBy(false, source, h)
  }

  /** The copy constructor with nil keys refused, as `Add` refuses them. */
  function CopyFrom(source: Option<seq<Entry>>, h: Hashing): Result<Dict, DictError> {
    CopyFromBy(true, source, h)
  }

  /** The constructor's `foreach` loop. */
  function AddAll(rejectNil: bool, d: Dict, pairs: seq<Entry>, h: Hashing): (r: Result<Dict, DictError>)
    requires Aligned(d)
    ensures r.Ok? ==> Aligned(r.value)
    ensures r.Ok? ==> Count(r.value) == Count(d) + |pairs|
    ensures r.Ok? && d.table.Hashed? ==> r.value.table.Hashed?
    decreases |pairs|
  {
    if pairs == [] then Ok(d)
    else if rejectNil && pairs[0].key.Nil? then Err(KeyIsNil)
    else
      var o := AddCore(d, pairs[0].key, pairs[0].value, false, h);
      if o.result.Err? then Err(o.result.error) else AddAll(rejectNil, o.state, pairs[1..], h)
  }

  // ---------------------------------------------------------------------------------------------
  // Insertion.

  /** The hash-table part of `AddCore`: the indexer setter, or `Dictionary.Add`. */
  function HashedAdd(entries: seq<Entry>, version: int32, key: Value, value: Value, allowOverwrite: bool, h: Hashing): (r: Outcome<()>)
    ensures r.state.table.Hashed?
    ensures r.result.Err? ==> r.state == Dict(Hashed(entries), version)
  {
    var i := FindEntry(entries, key, h);
    if 0 <= i then
      if allowOverwrite then
        Outcome(Dict(Hashed(entries[i := Entry(entries[i].key, value)]), WrappingIncrement(version)), Ok(()))
      else
        Outcome(Dict(Hashed(entries), version), Err(DuplicateKey))
    else
      Outcome(Dict(Hashed(entries + [Entry(key, value)]), WrappingIncrement(version)), Ok(()))
  }

  /**
    `AddCore(key, value, allowOverwrite)`. In list mode below the threshold the pair is appended or
    its value replaced; at the threshold only an overwrite of a present key stays in list mode;
    every other insertion first moves all pairs to a hash table, then inserts there.
  */
  function AddCore(d: Dict, key: Value, value: Value, allowOverwrite: bool, h: Hashing): (r: Outcome<()>)
    requires Aligned(d)
    ensures Aligned(r.state)
    ensures r.result.Err? ==> r.result.error == DuplicateKey && !allowOverwrite
    ensures r.result.Err? ==> r.state.version == d.version && Pairs(r.state) == Pairs(d)
    ensures r.result.Ok? ==> r.state.version == WrappingIncrement(d.version)
    ensures r.result.Ok? && !allowOverwrite ==> Count(r.state) == Count(d) + 1
    ensures Count(d) <= Count(r.state) <= Count(d) + 1
    ensures d.table.Hashed? ==> r.state.table.Hashed?
  {
    match d.table
    case Listed(keys, values) =>
      var i := FindIndex(keys, key, h);
      if |keys| < Threshold then
        if i < 0 then
          Outcome(Dict(Listed(keys + [key], values + [value]), WrappingIncrement(d.version)), Ok(()))
        else if !allowOverwrite then
          Outcome(d, Err(DuplicateKey))
        else
          Outcome(Dict(Listed(keys, values[i := value]), WrappingIncrement(d.version)), Ok(()))
      else if |keys| == Threshold && allowOverwrite && 0 <= i then
        Outcome(Dict(Listed(keys, values[i := value]), WrappingIncrement(d.version)), Ok(()))
      else
        // Switch to the hash table: every pair moves over and both lists are dropped.
        HashedAdd(Zip(keys, values), d.version, key, value, allowOverwrite, h)
    case Hashed(entries) =>
      HashedAdd(entries, d.version, key, value, allowOverwrite, h)
  }

  /** The indexer setter: insert or overwrite. */
  function Set(d: Dict, key: Value, value: Value, h: Hashing): (r: Outcome<()>)
    requires Aligned(d)
    ensures key.Nil? ==> r == Outcome(d, Err(KeyIsNil))
    ensures !key.Nil? ==> r.result.Ok? && r.state.version != d.version
  {
    if key.Nil? then Outcome(d, Err(KeyIsNil)) else AddCore(d, key, value, true, h)
  }

  /** `Add`: insert a new key, throwing when it is already present. */
  function Add(d: Dict, key: Value, value: Value, h: Hashing): (r: Outcome<()>)
    requires Aligned(d)
    ensures key.Nil? ==> r == Outcome(d, Err(KeyIsNil))
    ensures !key.Nil? && r.result.Ok? ==> Count(r.state) == Count(d) + 1
    ensures !key.Nil? && r.result.Err? ==> r.result.error == DuplicateKey && Pairs(r.state) == Pairs(d)
  {
    if key.Nil? then Outcome(d, Err(KeyIsNil)) else AddCore(d, key, value, false, h)
  }

  // ---------------------------------------------------------------------------------------------
  // Queries.

  /** The indexer getter. */
  function Get(d: Dict, key: Value, h: Hashing): (r: Result<Value, DictError>)
    ensures key.Nil? ==> r == Err(KeyIsNil)
    ensures !key.Nil? ==> (r.Ok? <==> Lookup(d, key, h).Some?)
    ensures !key.Nil? && r.Err? ==> r.error == KeyNotFound
    ensures r.Ok? ==> r.value == Lookup(d, key, h).value
  {
    if key.Nil? then Err(KeyIsNil)
    else
      var (found, value) := TryGetValue(d, key, h).value;
      if found then Ok(value) else Err(KeyNotFound)
  }

  /** `TryGetValue`: whether the key is present, and its value or nil. */
  function TryGetValue(d: Dict, key: Value, h: Hashing): (r: Result<(bool, Value), DictError>)
    ensures key.Nil? <==> r == Err(KeyIsNil)
    ensures r.Ok? ==> (r.value.0 <==> Lookup(d, key, h).Some?)
    ensures r.Ok? && r.value.0 ==> r.value.1 == Lookup(d, key, h).value
    ensures r.Ok? && !r.value.0 ==> r.value.1 == Nil
  {
    if key.Nil? then Err(KeyIsNil)
    else
      match Lookup(d, key, h)
      case Some(v) => Ok((true, v))
      case None => Ok((false, Nil))
  }

  /** `ContainsKey`: in list mode `Enumerable.Contains` with the equality comparer. */
  function ContainsKey(d: Dict, key: Value, h: Hashing): (r: Result<bool, DictError>)
    requires Aligned(d)
    ensures key.Nil? ==> r == Err(KeyIsNil)
    ensures !key.Nil? ==> r == Ok(Lookup(d, key, h).Some?)
  {
    if key.Nil? then Err(KeyIsNil)
    else
      match d.table
      case Listed(keys, _) =>
        FindIndexIsFirstMatch(Intended, keys, key, h);
        Ok(exists i :: 0 <= i < |keys| && Equals(keys[i], key, h))
      case Hashed(entries) =>
        Ok(FindEntry(entries, key, h) >= 0)
  }

  /** `ContainsValue`: some stored value equals `value` (stored value on the left). */
  function ContainsValue(d: Dict, value: Value, h: Hashing): (r: bool)
    requires Aligned(d)
    ensures r <==> exists i :: 0 <= i < |Pairs(d)| && Equals(Pairs(d)[i].value, value, h)
  {
    match d.table
    case Listed(keys, values) =>
      assert forall i :: 0 <= i < |values| ==> Pairs(d)[i] == Entry(keys[i], values[i]);
      exists i :: 0 <= i < |values| && Equals(values[i], value, h)
    case Hashed(entries) =>
      assert Pairs(d) == entries;
      exists i :: 0 <= i < |entries| && Equals(entries[i].value, value, h)
  }

  /** `ICollection<KeyValuePair>.Contains`: the key is present and the pair's value equals the stored one. */
  function ContainsPair(d: Dict, key: Value, value: Value, h: Hashing): (r: Result<bool, DictError>)
    ensures key.Nil? ==> r == Err(KeyIsNil)
    ensures !key.Nil? ==> r == Ok(Lookup(d, key, h).Some? && Equals(value, Lookup(d, key, h).value, h))
  {
    match TryGetValue(d, key, h)
    case Err(e) => Err(e)
    case Ok((found, stored)) => Ok(found && Equals(value, stored, h))
  }

  // ---------------------------------------------------------------------------------------------
  // Removal.

  /**
    `RemoveCore(key, value, checkValue)`: drop the pair the key finds, when `checkValue` only if its
    stored value equals `value`. Nothing changes when nothing is removed.
  */
  function RemoveCore(d: Dict, key: Value, value: Value, checkValue: bool, h: Hashing): (r: Outcome<bool>)
    requires Aligned(d)
    ensures Aligned(r.state)
    ensures r.result.Ok?
    ensures r.result.value <==>
              Lookup(d, key, h).Some? && (!checkValue || Equals(Lookup(d, key, h).value, value, h))
    ensures !r.result.value ==> r.state == d
    ensures r.result.value ==> r.state.version == WrappingIncrement(d.version) && Count(r.state) == Count(d) - 1
    ensures r.state.table.Hashed? <==> d.table.Hashed?
  {
    match d.table
    case Listed(keys, values) =>
      var i := FindIndex(keys, key, h);
      if i < 0 then Outcome(d, Ok(false))
      else if checkValue && !Equals(values[i], value, h) then Outcome(d, Ok(false))
      else Outcome(Dict(Listed(RemoveAt(keys, i), RemoveAt(values, i)), WrappingIncrement(d.version)), Ok(true))
    case Hashed(entries) =>
      var i := FindEntry(entries, key, h);
      if i < 0 then Outcome(d, Ok(false))
      else if checkValue && !Equals(entries[i].value, value, h) then Outcome(d, Ok(false))
      else Outcome(Dict(Hashed(RemoveAt(entries, i)), WrappingIncrement(d.version)), Ok(true))
  }

  /** `Remove(key)`. */
  function Remove(d: Dict, key: Value, h: Hashing): (r: Outcome<bool>)
    requires Aligned(d)
    ensures key.Nil? ==> r == Outcome(d, Err(KeyIsNil))
    ensures !key.Nil? ==> r.result == Ok(Lookup(d, key, h).Some?)
    ensures !key.Nil? && Lookup(d, key, h).None? ==> r.state == d
  {
    if key.Nil? then Outcome(d, Err(KeyIsNil)) else RemoveCore(d, key, Nil, false, h)
  }

  /** `ICollection<KeyValuePair>.Remove(item)`: removes only when the stored value matches too. */
  function RemovePair(d: Dict, key: Value, value: Value, h: Hashing): (r: Outcome<bool>)
    requires Aligned(d)
    ensures key.Nil? ==> r == Outcome(d, Err(KeyIsNil))
    ensures !key.Nil? ==>
              r.result == Ok(Lookup(d, key, h).Some? && Equals(Lookup(d, key, h).value, value, h))
  {
    if key.Nil? then Outcome(d, Err(KeyIsNil)) else RemoveCore(d, key, value, true, h)
  }

  /** `Clear`: empties whichever representation is in use and bumps the version. */
  function Clear(d: Dict): (r: Dict)
    ensures Count(r) == 0
    ensures r.table.Hashed? <==> d.table.Hashed?
    ensures r.version == WrappingIncrement(d.version)
  {
    match d.table
    case Listed(_, _) => Dict(Listed([], []), WrappingIncrement(d.version))
    case Hashed(_) => Dict(Hashed([]), WrappingIncrement(d.version))
  }
}

=== FILE: dictionary_props.dfy ===
/**
  What the operations of `MessagePackObjectDictionary` guarantee: lookups in the two
  representations agree, insertion stores and keeps, the invariant survives every operation, and
  the hash representation, once reached, is kept.
*/
module DictionaryProperties {
  import opened Common
  import opened Values
  import opened Equality
  import opened Dictionary

  // ---------------------------------------------------------------------------------------------
  // Probes.

  lemma {:induction false} FindIndexAppend(keys: seq<Value>, key: Value, p: Value, h: Hashing)
    ensures FindIndex(keys + [key], p, h) ==
              if FindIndex(keys, p, h) >= 0 then FindIndex(keys, p, h)
              else if Equals(key, p, h) then |keys| else -1
    decreases |keys|
  {
    if keys != [] {
      assert (keys + [key])[1..] == keys[1..] + [key];
      FindIndexAppend(keys[1..], key, p, h);
    }
  }

  lemma {:induction false} FindEntryAppend(es: seq<Entry>, e: Entry, p: Value, h: Hashing)
    ensures FindEntry(es + [e], p, h) ==
              if FindEntry(es, p, h) >= 0 then FindEntry(es, p, h)
              else if Hash(e.key, h) == Hash(p, h) && Equals(e.key, p, h) then |es| else -1
    decreases |es|
  {
    if es != [] {
      assert (es + [e])[1..] == es[1..] + [e];
      FindEntryAppend(es[1..], e, p, h);
    }
  }

  /** A hash-table probe only looks at keys: replacing values moves no slot. */
  lemma {:induction false} FindEntrySameKeys(es1: seq<Entry>, es2: seq<Entry>, p: Value, h: Hashing)
    requires |es1| == |es2|
    requires forall i :: 0 <= i < |es1| ==> es1[i].key == es2[i].key
    ensures FindEntry(es1, p, h) == FindEntry(es2, p, h)
    decreases |es1|
  {
    if es1 != [] {
      assert es1[0].key == es2[0].key;
      assert forall i :: 0 <= i < |es1| - 1 ==> es1[1..][i].key == es1[i + 1].key == es2[1..][i].key;
      FindEntrySameKeys(es1[1..], es2[1..], p, h);
    }
  }

  /**
    For a probe that contains no map, the list search and the hash search over the same pairs
    land on the same position: a key equal to the probe has the probe's hash code.
  */
  lemma {:induction false} SlotModesAgree(keys: seq<Value>, values: seq<Value>, p: Value, h: Hashing)
    requires |keys| == |values|
    requires MapFree(p)
    ensures FindIndex(keys, p, h) == FindEntry(Zip(keys, values), p, h)
    decreases |keys|
  {
    if keys != [] {
      var es := Zip(keys, values);
      assert es[0] == Entry(keys[0], values[0]);
      assert es[1..] == Zip(keys[1..], values[1..]);
      if Equals(keys[0], p, h) {
        EqualsImpliesEqualHash(keys[0], p, h);
      }
      SlotModesAgree(keys[1..], values[1..], p, h);
    }
  }

  /** Both representations of the same pairs give the same lookup result. */
  lemma {:induction false} LookupModesAgree(keys: seq<Value>, values: seq<Value>, v1: int32, v2: int32, p: Value, h: Hashing)
    requires |keys| == |values|
    requires MapFree(p)
    ensures Lookup(Dict(Listed(keys, values), v1), p, h) == Lookup(Dict(Hashed(Zip(keys, values)), v2), p, h)
  {
    SlotModesAgree(keys, values, p, h);
  }

  /**
    With the as-written integer equality the two representations disagree: the key `0` is found
    by the list search for the probe `[1]`, whose hash code is 1, but not by the hash search.
  */
  lemma AsWrittenModesDisagree(h: Hashing)
    ensures var keys := [Scalar(Int32, 0)];
            var values := [Scalar(Int32, 7)];
            var probe := List([Scalar(Int32, 1)]);
            && MapFree(probe)
            && LookupBy(AsWritten, Dict(Listed(keys, values), 0), probe, h) == Some(Scalar(Int32, 7))
            && LookupBy(AsWritten, Dict(Hashed(Zip(keys, values)), 0), probe, h) == None
  {
    var keys := [Scalar(Int32, 0)];
    var values := [Scalar(Int32, 7)];
    var probe := List([Scalar(Int32, 1)]);
    AsWrittenEqualityBreaksHashing(h);
    assert FindIndexBy(AsWritten, keys, probe, h) == 0;
    assert Zip(keys, values) == [Entry(Scalar(Int32, 0), Scalar(Int32, 7))];
    assert FindEntryBy(AsWritten, Zip(keys, values), probe, h) == -1;
  }

  /**
    With the as-written integer equality a stored `int` key 1 also answers the probe `true`
    (payload 1, the same hash code) in both representations, so `Add(true, v)` would be refused as
    a duplicate; under the corrected equality `true` is absent.
  */
  lemma AsWrittenIntegerKeyMatchesBoolean(h: Hashing)
    ensures var keys := [Scalar(Int32, 1)];
            var values := [Scalar(Int32, 7)];
            var probe := Scalar(Boolean, 1);
            && LookupBy(AsWritten, Dict(Listed(keys, values), 0), probe, h) == Some(Scalar(Int32, 7))
            && LookupBy(AsWritten, Dict(Hashed(Zip(keys, values)), 0), probe, h) == Some(Scalar(Int32, 7))
            && Lookup(Dict(Listed(keys, values), 0), probe, h).None?
            && Lookup(Dict(Hashed(Zip(keys, values)), 0), probe, h).None?
  {
    var keys := [Scalar(Int32, 1)];
    var values := [Scalar(Int32, 7)];
    var es := [Entry(Scalar(Int32, 1), Scalar(Int32, 7))];
    assert Zip(keys, values) == es;
    assert !Equals(Scalar(Int32, 1), Scalar(Boolean, 1), h);
    assert FindEntry(es[1..], Scalar(Boolean, 1), h) == -1;
    assert FindEntry(es, Scalar(Boolean, 1), h) == -1;
  }

  // ---------------------------------------------------------------------------------------------
  // Insertion stores the value.

  lemma HashedAddStoresValue(es: seq<Entry>, version: int32, key: Value, value: Value, allowOverwrite: bool, h: Hashing)
    requires WellFormed(key, h)
    ensures var r := HashedAdd(es, version, key, value, allowOverwrite, h);
            r.result.Ok? ==> Lookup(r.state, key, h) == Some(value)
  {
    EqualsReflexive(key, h);
    var i := FindEntry(es, key, h);
    if 0 <= i {
      if allowOverwrite {
        var es' := es[i := Entry(es[i].key, value)];
        FindEntrySameKeys(es, es', key, h);
      }
    } else {
      FindEntryAppend(es, Entry(key, value), key, h);
    }
  }

  /**
    A successful insertion makes the key look up to the inserted value. For a key containing no
    map it fails exactly when the key is present and overwriting is off, and it adds a pair
    exactly when the key was absent.
  */
  lemma AddCoreStoresValue(d: Dict, key: Value, value: Value, allowOverwrite: bool, h: Hashing)
    requires Aligned(d)
    requires WellFormed(key, h)
    ensures var r := AddCore(d, key, value, allowOverwrite, h);
            r.result.Ok? ==> Lookup(r.state, key, h) == Some(value)
    ensures var r := AddCore(d, key, value, allowOverwrite, h);
            MapFree(key) ==>
              && (r.result.Err? <==> !allowOverwrite && Lookup(d, key, h).Some?)
              && (r.result.Ok? ==> Count(r.state) == Count(d) + if Lookup(d, key, h).Some? then 0 else 1)
  {
    EqualsReflexive(key, h);
    match d.table
    case Listed(keys, values) =>
      var i := FindIndex(keys, key, h);
      if |keys| < Threshold && i < 0 {
        FindIndexAppend(keys, key, key, h);
      } else if |keys| < Threshold || (|keys| == Threshold && allowOverwrite && 0 <= i) {
      } else {
        HashedAddStoresValue(Zip(keys, values), d.version, key, value, allowOverwrite, h);
        if MapFree(key) {
          SlotModesAgree(keys, values, key, h);
        }
      }
    case Hashed(es) =>
      HashedAddStoresValue(es, d.version, key, value, allowOverwrite, h);
  }

  /** The setter followed by the getter gives back the value set. */
  lemma SetThenGet(d: Dict, key: Value, value: Value, h: Hashing)
    requires Aligned(d)
    requires WellFormed(key, h) && !key.Nil?
    ensures Get(Set(d, key, value, h).state, key, h) == Ok(value)
  {
    AddCoreStoresValue(d, key, value, true, h);
  }

  // ---------------------------------------------------------------------------------------------
  // Insertion keeps the other pairs.

  lemma HashedAddKeepsOthers(es: seq<Entry>, version: int32, key: Value, value: Value, allowOverwrite: bool, p: Value, h: Hashing)
    ensures var r := HashedAdd(es, version, key, value, allowOverwrite, h);
            var j := FindEntry(es, p, h);
            && (0 <= j && j != FindEntry(es, key, h) ==> Lookup(r.state, p, h) == Some(es[j].value))
            && (j < 0 && !Equals(key, p, h) ==> Lookup(r.state, p, h).None?)
  {
    var i := FindEntry(es, key, h);
    if 0 <= i {
      if allowOverwrite {
        var es' := es[i := Entry(es[i].key, value)];
        FindEntrySameKeys(es, es', p, h);
      }
    } else {
      FindEntryAppend(es, Entry(key, value), p, h);
    }
  }

  /**
    An insertion leaves every other present key's value alone, and adds no key other than one
    equal to the inserted key (for keys and probes that contain no map).
  */
  lemma AddCoreKeepsOthers(d: Dict, key: Value, value: Value, allowOverwrite: bool, p: Value, h: Hashing)
    requires Aligned(d)
    requires MapFree(key) && MapFree(p)
    ensures var r := AddCore(d, key, value, allowOverwrite, h);
            && (0 <= Slot(d, p, h) && Slot(d, p, h) != Slot(d, key, h) ==> Lookup(r.state, p, h) == Lookup(d, p, h))
            && (Slot(d, p, h) < 0 && !Equals(key, p, h) ==> Lookup(r.state, p, h).None?)
  {
    match d.table
    case Listed(keys, values) =>
      var i := FindIndex(keys, key, h);
      if |keys| < Threshold && i < 0 {
        FindIndexAppend(keys, key, p, h);
      } else if |keys| < Threshold || (|keys| == Threshold && allowOverwrite && 0 <= i) {
      } else {
        var es := Zip(keys, values);
        SlotModesAgree(keys, values, p, h);
        SlotModesAgree(keys, values, key, h);
        HashedAddKeepsOthers(es, d.version, key, value, allowOverwrite, p, h);
        LookupModesAgree(keys, values, d.version, d.version, p, h);
      }
    case Hashed(es) =>
      HashedAddKeepsOthers(es, d.version, key, value, allowOverwrite, p, h);
  }

  // ---------------------------------------------------------------------------------------------
  // The invariant.

  lemma HashedAddPreservesInvariant(es: seq<Entry>, version: int32, key: Value, value: Value, allowOverwrite: bool, h: Hashing)
    requires DictInvariant(Dict(Hashed(es), version), h)
    requires !key.Nil?
    ensures DictInvariant(HashedAdd(es, version, key, value, allowOverwrite, h).state, h)
  {
    var i := FindEntry(es, key, h);
    FindEntryIsFirstMatch(Intended, es, key, h);
    if 0 <= i {
      if allowOverwrite {
        var es' := es[i := Entry(es[i].key, value)];
        assert forall k :: 0 <= k < |es'| ==> es'[k].key == es[k].key;
      }
    } else {
      var es' := es + [Entry(key, value)];
      forall a, b | 0 <= a < b < |es'|
        ensures !(Hash(es'[a].key, h) == Hash(es'[b].key, h) && Equals(es'[a].key, es'[b].key, h))
      {
        if b == |es| {
          assert es'[b].key == key;
          assert !(Hash(es[a].key, h) == Hash(key, h) && EqualsBy(Intended, es[a].key, key, h));
        }
      }
    }
  }

  /** Moving the pairs of a valid list representation into a hash table gives a valid table. */
  lemma MigrationPreservesInvariant(keys: seq<Value>, values: seq<Value>, version: int32, h: Hashing)
    requires DictInvariant(Dict(Listed(keys, values), version), h)
    ensures DictInvariant(Dict(Hashed(Zip(keys, values)), version), h)
  {
    var es := Zip(keys, values);
    assert forall k :: 0 <= k < |es| ==> es[k].key == keys[k];
  }

  /** Below the threshold a list-mode insertion stays in list mode and keeps the invariant. */
  lemma ListedAddPreservesInvariant(d: Dict, key: Value, value: Value, allowOverwrite: bool, h: Hashing)
    requires DictInvariant(d, h) && d.table.Listed? && |d.table.keys| < Threshold
    requires !key.Nil?
    ensures DictInvariant(AddCore(d, key, value, allowOverwrite, h).state, h)
  {
    var keys := d.table.keys;
    var i := FindIndex(keys, key, h);
    FindIndexIsFirstMatch(Intended, keys, key, h);
    if i < 0 {
      var ks := keys + [key];
      forall a, b | 0 <= a < b < |ks|
        ensures !Equals(ks[a], ks[b], h)
      {
        if b == |keys| {
          assert !EqualsBy(Intended, keys[a], key, h);
        }
      }
    }
  }

  /** `AddCore` with a non-nil key keeps the invariant, whether it succeeds or throws. */
  lemma AddCorePreservesInvariant(d: Dict, key: Value, value: Value, allowOverwrite: bool, h: Hashing)
    requires DictInvariant(d, h)
    requires !key.Nil?
    ensures DictInvariant(AddCore(d, key, value, allowOverwrite, h).state, h)
  {
    match d.table
    case Listed(keys, values) =>
      var i := FindIndex(keys, key, h);
      if |keys| < Threshold {
        ListedAddPreservesInvariant(d, key, value, allowOverwrite, h);
      } else if |keys| == Threshold && allowOverwrite && 0 <= i {
      } else {
        MigrationPreservesInvariant(keys, values, d.version, h);
        HashedAddPreservesInvariant(Zip(keys, values), d.version, key, value, allowOverwrite, h);
      }
    case Hashed(es) =>
      HashedAddPreservesInvariant(es, d.version, key, value, allowOverwrite, h);
  }

  /** Removing a pair keeps the invariant. */
  lemma RemoveCorePreservesInvariant(d: Dict, key: Value, value: Value, checkValue: bool, h: Hashing)
    requires DictInvariant(d, h)
    ensures DictInvariant(RemoveCore(d, key, value, checkValue, h).state, h)
  {
    var r := RemoveCore(d, key, value, checkValue, h);
    if r.result.value {
      match d.table
      case Listed(keys, values) =>
        var i := FindIndex(keys, key, h);
        var ks := RemoveAt(keys, i);
        forall a, b | 0 <= a < b < |ks|
          ensures !Equals(ks[a], ks[b], h)
        {
          var a' := if a < i then a else a + 1;
          var b' := if b < i then b else b + 1;
          assert ks[a] == keys[a'] && ks[b] == keys[b'];
        }
      case Hashed(es) =>
        var i := FindEntry(es, key, h);
        var es' := RemoveAt(es, i);
        forall a, b | 0 <= a < b < |es'|
          ensures !(Hash(es'[a].key, h) == Hash(es'[b].key, h) && Equals(es'[a].key, es'[b].key, h))
        {
          var a' := if a < i then a else a + 1;
          var b' := if b < i then b else b + 1;
          assert es'[a] == es[a'] && es'[b] == es[b'];
        }
    }
  }

  // ---------------------------------------------------------------------------------------------
  // Removal takes out the key's pair and nothing else.

  /**
    Dropping position `i` from the key list moves no other probe's first match: a match before
    `i` stays, one after `i` shifts down by one, and no match appears where there was none.
  */
  lemma FindIndexRemoveAt(keys: seq<Value>, i: nat, p: Value, h: Hashing)
    requires i < |keys|
    ensures var j := FindIndex(keys, p, h);
            var k := FindIndex(RemoveAt(keys, i), p, h);
            && (j < 0 ==> k < 0)
            && (0 <= j < i ==> k == j)
            && (i < j ==> k == j - 1)
            && (0 <= k ==> Equals(RemoveAt(keys, i)[k], p, h))
  {
    var rest := RemoveAt(keys, i);
    FindIndexIsFirstMatch(Intended, keys, p, h);
    FindIndexIsFirstMatch(Intended, rest, p, h);
    var j := FindIndex(keys, p, h);
    if i < j {
      assert rest[j - 1] == keys[j];
    }
  }

  /** The same for the hash table's entries. */
  lemma FindEntryRemoveAt(es: seq<Entry>, i: nat, p: Value, h: Hashing)
    requires i < |es|
    ensures var j := FindEntry(es, p, h);
            var k := FindEntry(RemoveAt(es, i), p, h);
            && (j < 0 ==> k < 0)
            && (0 <= j < i ==> k == j)
            && (i < j ==> k == j - 1)
            && (0 <= k ==> Hash(RemoveAt(es, i)[k].key, h) == Hash(p, h) && Equals(RemoveAt(es, i)[k].key, p, h))
  {
    var rest := RemoveAt(es, i);
    FindEntryIsFirstMatch(Intended, es, p, h);
    FindEntryIsFirstMatch(Intended, rest, p, h);
    var j := FindEntry(es, p, h);
    if i < j {
      assert rest[j - 1] == es[j];
    }
  }

  lemma ListedRemoveKeepsOthers(keys: seq<Value>, values: seq<Value>, i: nat, version: int32, p: Value, h: Hashing)
    requires |keys| == |values| && i < |keys|
    ensures var j := FindIndex(keys, p, h);
            var after := Dict(Listed(RemoveAt(keys, i), RemoveAt(values, i)), version);
            && (0 <= j && j != i ==> Lookup(after, p, h) == Some(values[j]))
            && (j < 0 ==> Lookup(after, p, h).None?)
  {
    FindIndexRemoveAt(keys, i, p, h);
  }

  lemma HashedRemoveKeepsOthers(es: seq<Entry>, i: nat, version: int32, p: Value, h: Hashing)
    requires i < |es|
    ensures var j := FindEntry(es, p, h);
            var after := Dict(Hashed(RemoveAt(es, i)), version);
            && (0 <= j && j != i ==> Lookup(after, p, h) == Some(es[j].value))
            && (j < 0 ==> Lookup(after, p, h).None?)
  {
    FindEntryRemoveAt(es, i, p, h);
  }

  /**
    `RemoveCore` leaves every other present key with its value, and makes no absent key present.
  */
  lemma RemoveCoreKeepsOthers(d: Dict, key: Value, value: Value, checkValue: bool, p: Value, h: Hashing)
    requires Aligned(d)
    ensures var r := RemoveCore(d, key, value, checkValue, h);
            && (0 <= Slot(d, p, h) && Slot(d, p, h) != Slot(d, key, h) ==> Lookup(r.state, p, h) == Lookup(d, p, h))
            && (Slot(d, p, h) < 0 ==> Lookup(r.state, p, h).None?)
  {
    var r := RemoveCore(d, key, value, checkValue, h);
    if r.result.value {
      match d.table
      case Listed(keys, values) =>
        var i := FindIndex(keys, key, h);
        assert r.state == Dict(Listed(RemoveAt(keys, i), RemoveAt(values, i)), WrappingIncrement(d.version));
        ListedRemoveKeepsOthers(keys, values, i, WrappingIncrement(d.version), p, h);
      case Hashed(es) =>
        var i := FindEntry(es, key, h);
        assert r.state == Dict(Hashed(RemoveAt(es, i)), WrappingIncrement(d.version));
        HashedRemoveKeepsOthers(es, i, WrappingIncrement(d.version), p, h);
    }
  }

  /** In a valid dictionary no second key equals a map-free key: after `RemoveCore` removes, the key is absent. */
  lemma RemoveCoreRemovesKey(d: Dict, key: Value, value: Value, checkValue: bool, h: Hashing)
    requires DictInvariant(d, h)
    requires MapFree(key)
    ensures var r := RemoveCore(d, key, value, checkValue, h);
            r.result.value ==> Lookup(r.state, key, h).None?
  {
    match d.table
    case Listed(keys, values) =>
      var i := FindIndex(keys, key, h);
      if 0 <= i {
        FindIndexIsFirstMatch(Intended, keys, key, h);
        FindIndexRemoveAt(keys, i, key, h);
        var rest := RemoveAt(keys, i);
        forall m | 0 <= m < |rest|
          ensures !Equals(rest[m], key, h)
        {
          var m' := if m < i then m else m + 1;
          assert rest[m] == keys[m'];
          if Equals(keys[m'], key, h) {
            SharedMatch(keys[i], keys[m'], key, h);
            assert false;
          }
        }
      }
    case Hashed(es) =>
      var i := FindEntry(es, key, h);
      if 0 <= i {
        FindEntryIsFirstMatch(Intended, es, key, h);
        FindEntryRemoveAt(es, i, key, h);
        var rest := RemoveAt(es, i);
        forall m | 0 <= m < |rest|
          ensures !(Hash(rest[m].key, h) == Hash(key, h) && Equals(rest[m].key, key, h))
        {
          var m' := if m < i then m else m + 1;
          assert rest[m] == es[m'];
          if Hash(es[m'].key, h) == Hash(key, h) && Equals(es[m'].key, key, h) {
            SharedMatch(es[i].key, es[m'].key, key, h);
            assert false;
          }
        }
      }
  }

  /**
    After `Remove` the key is absent, whether or not it was present; every other present key keeps
    its value and no absent key appears.
  */
  lemma RemoveRemovesKey(d: Dict, key: Value, p: Value, h: Hashing)
    requires DictInvariant(d, h)
    requires !key.Nil? && MapFree(key)
    ensures Lookup(Remove(d, key, h).state, key, h).None?
    ensures 0 <= Slot(d, p, h) && Slot(d, p, h) != Slot(d, key, h) ==>
              Lookup(Remove(d, key, h).state, p, h) == Lookup(d, p, h)
    ensures Slot(d, p, h) < 0 ==> Lookup(Remove(d, key, h).state, p, h).None?
  {
    RemoveCoreRemovesKey(d, key, Nil, false, h);
    RemoveCoreKeepsOthers(d, key, Nil, false, p, h);
  }

  /**
    `ICollection<KeyValuePair>.Remove`: when it reports a removal the key is absent afterwards, and
    when it does not nothing changed.
  */
  lemma RemovePairRemovesKey(d: Dict, key: Value, value: Value, h: Hashing)
    requires DictInvariant(d, h)
    requires !key.Nil? && MapFree(key)
    ensures var r := RemovePair(d, key, value, h);
            && (r.result == Ok(true) ==> Lookup(r.state, key, h).None?)
            && (r.result == Ok(false) ==> r.state == d)
  {
    RemoveCoreRemovesKey(d, key, value, true, h);
  }

  /** Either way, `ICollection<KeyValuePair>.Remove` keeps the other keys' values and adds no key. */
  lemma RemovePairKeepsOthers(d: Dict, key: Value, value: Value, p: Value, h: Hashing)
    requires Aligned(d)
    requires !key.Nil?
    ensures 0 <= Slot(d, p, h) && Slot(d, p, h) != Slot(d, key, h) ==>
              Lookup(RemovePair(d, key, value, h).state, p, h) == Lookup(d, p, h)
    ensures Slot(d, p, h) < 0 ==> Lookup(RemovePair(d, key, value, h).state, p, h).None?
  {
    RemoveCoreKeepsOthers(d, key, value, true, p, h);
  }

  // ---------------------------------------------------------------------------------------------
  // Sequences of operations.

  /** A mutating call on the dictionary, through its public surface. */
  datatype Op =
    | SetOp(key: Value, value: Value)
    | AddOp(key: Value, value: Value)
    | RemoveOp(key: Value)
    | RemovePairOp(key: Value, value: Value)
    | ClearOp

  /** The dictionary after the call, whether it returned or threw. */
  function Apply(d: Dict, op: Op, h: Hashing): (r: Dict)
    requires Aligned(d)
    ensures Aligned(r)
  {
    match op
    case SetOp(k, v) => Set(d, k, v, h).state
    case AddOp(k, v) => Add(d, k, v, h).state
    case RemoveOp(k) => Remove(d, k, h).state
    case RemovePairOp(k, v) => RemovePair(d, k, v, h).state
    case ClearOp => Clear(d)
  }

  function Run(d: Dict, ops: seq<Op>, h: Hashing): (r: Dict)
    requires Aligned(d)
    ensures Aligned(r)
    decreases |ops|
  {
    if ops == [] then d else Run(Apply(d, ops[0], h), ops[1..], h)
  }

  lemma ApplyPreservesInvariant(d: Dict, op: Op, h: Hashing)
    requires DictInvariant(d, h)
    ensures DictInvariant(Apply(d, op, h), h)
    ensures d.table.Hashed? ==> Apply(d, op, h).table.Hashed?
  {
    match op
    case SetOp(k, v) =>
      if !k.Nil? { AddCorePreservesInvariant(d, k, v, true, h); }
    case AddOp(k, v) =>
      if !k.Nil? { AddCorePreservesInvariant(d, k, v, false, h); }
    case RemoveOp(k) =>
      if !k.Nil? { RemoveCorePreservesInvariant(d, k, Nil, false, h); }
    case RemovePairOp(k, v) =>
      if !k.Nil? { RemoveCorePreservesInvariant(d, k, v, true, h); }
    case ClearOp =>
  }

  /**
    Any sequence of calls keeps the invariant (aligned lists of at most 10 distinct non-nil keys,
    or a table of distinct non-nil keys), and once the hash table is in use no call leaves it.
  */
  lemma {:induction false} RunPreservesInvariant(d: Dict, ops: seq<Op>, h: Hashing)
    requires DictInvariant(d, h)
    ensures DictInvariant(Run(d, ops, h), h)
    ensures d.table.Hashed? ==> Run(d, ops, h).table.Hashed?
    decreases |ops|
  {
    if ops != [] {
      ApplyPreservesInvariant(d, ops[0], h);
      RunPreservesInvariant(Apply(d, ops[0], h), ops[1..], h);
    }
  }

  // ---------------------------------------------------------------------------------------------
  // The switch to the hash table.

  /**
    From list mode, an insertion stays in list mode exactly when there is room below the
    threshold, or when it overwrites a present key (for a key containing no map).
  */
  lemma ModeAfterInsert(d: Dict, key: Value, value: Value, allowOverwrite: bool, h: Hashing)
    requires DictInvariant(d, h) && d.table.Listed?
    requires MapFree(key)
    ensures AddCore(d, key, value, allowOverwrite, h).state.table.Listed? <==>
              Count(d) < Threshold || (allowOverwrite && Lookup(d, key, h).Some?)
  {
  }

  /**
    `Add` of a present key when the list holds exactly 10 pairs moves the pairs to a hash table
    and then throws: the pairs, count and version are as before, only the representation changed.
  */
  lemma DuplicateAddAtThresholdSwitches(d: Dict, key: Value, value: Value, h: Hashing)
    requires DictInvariant(d, h) && d.table.Listed? && Count(d) == Threshold
    requires !key.Nil? && MapFree(key) && Lookup(d, key, h).Some?
    ensures Add(d, key, value, h) == Outcome(Dict(Hashed(Pairs(d)), d.version), Err(DuplicateKey))
  {
    SlotModesAgree(d.table.keys, d.table.values, key, h);
  }

  // ---------------------------------------------------------------------------------------------
  // The copy constructor.

  lemma {:induction false} AddAllPreservesInvariant(d: Dict, pairs: seq<Entry>, h: Hashing)
    requires DictInvariant(d, h)
    ensures var r := AddAll(true, d, pairs, h); r.Ok? ==> DictInvariant(r.value, h)
    decreases |pairs|
  {
    if pairs != [] && !pairs[0].key.Nil? {
      AddCorePreservesInvariant(d, pairs[0].key, pairs[0].value, false, h);
      var o := AddCore(d, pairs[0].key, pairs[0].value, false, h);
      if o.result.Ok? {
        AddAllPreservesInvariant(o.state, pairs[1..], h);
      }
    }
  }

  /** A copy that succeeds satisfies the invariant, whatever the source held. */
  lemma CopyFromIsWellFormed(source: Option<seq<Entry>>, h: Hashing)
    ensures var r := CopyFrom(source, h); r.Ok? ==> DictInvariant(r.value, h)
  {
    if source.Some? {
      var pairs := source.value;
      var start := if |pairs| <= Threshold then Dict(Listed([], []), 0) else Dict(Hashed([]), 0);
      AddAllPreservesInvariant(start, pairs, h);
    }
  }

  lemma {:induction false} AddAllStaysListed(rejectNil: bool, d: Dict, pairs: seq<Entry>, h: Hashing)
    requires Aligned(d) && d.table.Listed? && Count(d) + |pairs| <= Threshold
    ensures var r := AddAll(rejectNil, d, pairs, h); r.Ok? ==> r.value.table.Listed?
    decreases |pairs|
  {
    if pairs != [] && !(rejectNil && pairs[0].key.Nil?) {
      var o := AddCore(d, pairs[0].key, pairs[0].value, false, h);
      if o.result.Ok? {
        AddAllStaysListed(rejectNil, o.state, pairs[1..], h);
      }
    }
  }

  /** A successful copy holds one pair per source pair, in list mode exactly when there are at most 10. */
  lemma CopyFromModeFollowsCount(rejectNil: bool, pairs: seq<Entry>, h: Hashing)
    ensures var r := CopyFromBy(rejectNil, Some(pairs), h);
            r.Ok? ==> Count(r.value) == |pairs| && (r.value.table.Listed? <==> |pairs| <= Threshold)
  {
    if |pairs| <= Threshold {
      AddAllStaysListed(rejectNil, Dict(Listed([], []), 0), pairs, h);
    }
  }

  /**
    As written, the copy constructor adds a nil key from the source like any other key, producing a
    dictionary that breaks its own invariant; refusing it makes the copy fail instead.
  */
  lemma CopyFromAsWrittenAdmitsNilKey(h: Hashing)
    ensures var source := Some([Entry(Nil, Scalar(Int32, 1))]);
            && CopyFromAsWritten(source, h) == Ok(Dict(Listed([Nil], [Scalar(Int32, 1)]), 1))
            && !DictInvariant(CopyFromAsWritten(source, h).value, h)
            && CopyFrom(source, h) == Err(CopyFailed)
  {
    var pairs := [Entry(Nil, Scalar(Int32, 1))];
    var start := Dict(Listed([], []), 0);
    assert AddCore(start, Nil, Scalar(Int32, 1), false, h) == Outcome(Dict(Listed([Nil], [Scalar(Int32, 1)]), 1), Ok(()));
    var copied := Dict(Listed([Nil], [Scalar(Int32, 1)]), 1);
    assert AddAll(false, start, pairs, h) == Ok(copied);
    assert copied.table.keys[0].Nil?;
  }
}

=== FILE: equality.dfy ===
/**
  Properties of `MessagePackObject.Equals` and `GetHashCode`, for the rule as written in the source
  and for the intended rule, and the counterexample that separates them.
*/
module Equality {
  import opened Common
  import opened Values

  // ---------------------------------------------------------------------------------------------
  // Nil and scalars.

  /** Nil equals nil, and nil never equals a non-nil value in either argument order. */
  lemma NilEquality(rule: EqRule, v: Value, h: Hashing)
    ensures EqualsBy(rule, Nil, v, h) <==> v.Nil?
    ensures EqualsBy(rule, v, Nil, h) <==> v.Nil?
  {
  }

  /**
    As written, an integer on the left equals any non-nil right operand whose raw `_value` is the
    same, whatever its declared width, signedness or kind.
  */
  lemma IntegerEqualityAsWritten(code: TypeCode, payload: u64, other: Value, h: Hashing)
    requires code.IsInteger()
    ensures EqualsBy(AsWritten, Scalar(code, payload), other, h) <==> !other.Nil? && payload == RawPayload(other)
  {
  }

  /** Intended: an integer equals exactly the integers with the same 64-bit payload. */
  lemma IntegerEqualityIntended(code: TypeCode, payload: u64, other: Value, h: Hashing)
    requires code.IsInteger()
    ensures Equals(Scalar(code, payload), other, h) <==>
              other.Scalar? && other.code.IsInteger() && other.payload == payload
  {
  }

  /** Boolean, Single and Double equal only a scalar of the same type code with the same payload
      (under either rule; only the left operand's type code is consulted). */
  lemma NonIntegerScalarEquality(rule: EqRule, code: TypeCode, payload: u64, other: Value, h: Hashing)
    requires !code.IsInteger()
    ensures EqualsBy(rule, Scalar(code, payload), other, h) <==>
              other == Scalar(code, payload)
  {
  }

  // ---------------------------------------------------------------------------------------------
  // Lists and maps.

  lemma {:induction false} SeqEqualsPointwise(rule: EqRule, xs: seq<Value>, ys: seq<Value>, h: Hashing)
    ensures SeqEqualsBy(rule, xs, ys, h) <==>
              |xs| == |ys| && forall i :: 0 <= i < |xs| ==> EqualsBy(rule, xs[i], ys[i], h)
    decreases |xs|
  {
    if |xs| == |ys| && xs != [] {
      SeqEqualsPointwise(rule, xs[1..], ys[1..], h);
      assert forall i :: 0 < i < |xs| ==> xs[i] == xs[1..][i - 1] && ys[i] == ys[1..][i - 1];
    }
  }

  /** `SequenceEqual`: lists are equal iff they have the same length and are element-wise equal in order. */
  lemma ListEquality(rule: EqRule, xs: seq<Value>, ys: seq<Value>, h: Hashing)
    ensures EqualsBy(rule, List(xs), List(ys), h) <==>
              |xs| == |ys| && forall i :: 0 <= i < |xs| ==> EqualsBy(rule, xs[i], ys[i], h)
  {
    SeqEqualsPointwise(rule, xs, ys, h);
  }

  /** The pair `e` of the left map is found in `d2` with an equal value. */
  predicate FoundIn(rule: EqRule, e: Entry, d2: Dict, h: Hashing) {
    var found := LookupBy(rule, d2, e.key, h);
    found.Some? && EqualsBy(rule, e.value, found.value, h)
  }

  lemma {:induction false} PairsFoundPointwise(rule: EqRule, keys: seq<Value>, values: seq<Value>, d2: Dict, h: Hashing)
    ensures PairsFoundBy(rule, keys, values, d2, h) <==>
              forall i :: 0 <= i < |Zip(keys, values)| ==> FoundIn(rule, Zip(keys, values)[i], d2, h)
    decreases |keys|
  {
    if keys != [] && values != [] {
      PairsFoundPointwise(rule, keys[1..], values[1..], d2, h);
      var z := Zip(keys, values);
      assert z == [Entry(keys[0], values[0])] + Zip(keys[1..], values[1..]);
      assert forall i :: 0 < i < |z| ==> z[i] == Zip(keys[1..], values[1..])[i - 1];
    }
  }

  lemma {:induction false} EntriesFoundPointwise(rule: EqRule, es: seq<Entry>, d2: Dict, h: Hashing)
    ensures EntriesFoundBy(rule, es, d2, h) <==> forall i :: 0 <= i < |es| ==> FoundIn(rule, es[i], d2, h)
    decreases |es|
  {
    if es != [] {
      EntriesFoundPointwise(rule, es[1..], d2, h);
      assert forall i :: 0 < i < |es| ==> es[i] == es[1..][i - 1];
    }
  }

  /**
    Maps are equal iff they have the same count and every pair of the left map is found, through
    the right map's own lookup, with an equal value.
  */
  lemma MapEquality(rule: EqRule, d1: Dict, d2: Dict, h: Hashing)
    ensures EqualsBy(rule, Map(d1), Map(d2), h) <==>
              Count(d1) == Count(d2) && forall i :: 0 <= i < |Pairs(d1)| ==> FoundIn(rule, Pairs(d1)[i], d2, h)
  {
    assert EqualsBy(rule, Map(d1), Map(d2), h) == MapEqualsBy(rule, d1, d2, h);
    match d1.table
    case Listed(keys, values) =>
      assert MapEqualsBy(rule, d1, d2, h) == (Count(d1) == Count(d2) && PairsFoundBy(rule, keys, values, d2, h));
      PairsFoundPointwise(rule, keys, values, d2, h);
      assert Pairs(d1) == Zip(keys, values);
    case Hashed(entries) =>
      assert MapEqualsBy(rule, d1, d2, h) == (Count(d1) == Count(d2) && EntriesFoundBy(rule, entries, d2, h));
      EntriesFoundPointwise(rule, entries, d2, h);
      assert Pairs(d1) == entries;
  }

  /** A handle never equals a value of another kind. */
  lemma HandleKinds(rule: EqRule, a: Value, b: Value, h: Hashing)
    requires EqualsBy(rule, a, b, h)
    ensures a.Raw? ==> b.Raw? && b.bytes == a.bytes
    ensures a.List? ==> b.List?
    ensures a.Map? ==> b.Map?
  {
  }

  // ---------------------------------------------------------------------------------------------
  // Dictionary probes.

  /** `FindIndex` returns the first stored key equal to the probe, or -1 when there is none. */
  lemma {:induction false} FindIndexIsFirstMatch(rule: EqRule, keys: seq<Value>, probe: Value, h: Hashing)
    ensures var i := FindIndexBy(rule, keys, probe, h);
      && (0 <= i ==> EqualsBy(rule, keys[i], probe, h))
      && (forall j :: 0 <= j < |keys| && EqualsBy(rule, keys[j], probe, h) ==> 0 <= i <= j)
    decreases |keys|
  {
    if keys != [] && !EqualsBy(rule, keys[0], probe, h) {
      FindIndexIsFirstMatch(rule, keys[1..], probe, h);
      assert forall j :: 0 < j < |keys| ==> keys[j] == keys[1..][j - 1];
    }
  }

  /** A hash-table probe lands on the first stored key with the probe's hash code that equals it. */
  lemma {:induction false} FindEntryIsFirstMatch(rule: EqRule, es: seq<Entry>, probe: Value, h: Hashing)
    ensures var i := FindEntryBy(rule, es, probe, h);
      && (0 <= i ==> Hash(es[i].key, h) == Hash(probe, h) && EqualsBy(rule, es[i].key, probe, h))
      && (forall j :: 0 <= j < |es| && Hash(es[j].key, h) == Hash(probe, h) && EqualsBy(rule, es[j].key, probe, h)
            ==> 0 <= i <= j)
    decreases |es|
  {
    if es != [] && !(Hash(es[0].key, h) == Hash(probe, h) && EqualsBy(rule, es[0].key, probe, h)) {
      FindEntryIsFirstMatch(rule, es[1..], probe, h);
      assert forall j :: 0 < j < |es| ==> es[j] == es[1..][j - 1];
    }
  }

  // ---------------------------------------------------------------------------------------------
  // Reflexivity.

  /** Every well-formed value equals itself: a map finds each of its own keys at its own slot. */
  lemma {:induction false} EqualsReflexive(v: Value, h: Hashing)
    requires WellFormed(v, h)
    ensures Equals(v, v, h)
    decreases Size(v), 1
  {
    match v
    case List(items) =>
      forall i | 0 <= i < |items|
        ensures Equals(items[i], items[i], h)
      {
        ElementSize(items, i);
        EqualsReflexive(items[i], h);
      }
      ListEquality(Intended, items, items, h);
    case Map(d) =>
      forall i | 0 <= i < |Pairs(d)|
        ensures FoundIn(Intended, Pairs(d)[i], d, h)
      {
        OwnPairFound(d, i, h);
      }
      MapEquality(Intended, d, d, h);
    case _ =>
  }

  lemma {:induction false} OwnPairFound(d: Dict, i: nat, h: Hashing)
    requires WellFormed(Map(d), h)
    requires i < |Pairs(d)|
    ensures FoundIn(Intended, Pairs(d)[i], d, h)
    decreases Size(Map(d)), 0
  {
    assert Size(Map(d)) == 1 + DictSize(d);
    match d.table
    case Listed(keys, values) =>
      assert DictSize(d) == SeqSize(keys) + SeqSize(values);
      ElementSize(keys, i);
      ElementSize(values, i);
      EqualsReflexive(keys[i], h);
      EqualsReflexive(values[i], h);
      FindIndexIsFirstMatch(Intended, keys, keys[i], h);
    case Hashed(entries) =>
      assert DictSize(d) == EntriesSize(entries);
      EntryElementSize(entries, i);
      EqualsReflexive(entries[i].key, h);
      EqualsReflexive(entries[i].value, h);
      FindEntryIsFirstMatch(Intended, entries, entries[i].key, h);
  }

  // ---------------------------------------------------------------------------------------------
  // Hashing.

  /** Nil hashes to 0; a scalar's hash depends only on its payload, not on its declared type. */
  lemma ScalarHashes(c1: TypeCode, c2: TypeCode, payload: u64, h: Hashing)
    ensures Hash(Nil, h) == 0
    ensures Hash(Scalar(c1, payload), h) == Hash(Scalar(c2, payload), h)
    ensures Hash(Scalar(c1, payload), h) == HashU64(payload)
  {
  }

  lemma {:induction false} HashSeqAppend(xs: seq<Value>, ys: seq<Value>, h: Hashing)
    ensures HashSeq(xs + ys, h) == HashSeq(xs, h) ^ HashSeq(ys, h)
    decreases |xs|
  {
    if xs == [] {
      assert xs + ys == ys;
    } else {
      HashSeqAppend(xs[1..], ys, h);
      assert (xs + ys)[1..] == xs[1..] + ys;
    }
  }

  /**
    A list's hash is the XOR of its element hashes folded from the left, as `Aggregate` computes it:
    the empty list hashes to 0 and appending an element XORs in its hash.
  */
  lemma ListHashIsXorFold(xs: seq<Value>, x: Value, h: Hashing)
    ensures Hash(List([]), h) == 0
    ensures Hash(List(xs + [x]), h) == Hash(List(xs), h) ^ Hash(x, h)
  {
    HashSeqAppend(xs, [x], h);
    assert HashSeq([x], h) == Hash(x, h) ^ HashSeq([], h);
  }

  lemma {:induction false} HashSeqPointwise(xs: seq<Value>, ys: seq<Value>, h: Hashing)
    requires |xs| == |ys|
    requires forall i :: 0 <= i < |xs| ==> Hash(xs[i], h) == Hash(ys[i], h)
    ensures HashSeq(xs, h) == HashSeq(ys, h)
    decreases |xs|
  {
    if xs != [] {
      assert Hash(xs[0], h) == Hash(ys[0], h);
      assert forall i :: 0 < i < |xs| ==> xs[i] == xs[1..][i - 1] && ys[i] == ys[1..][i - 1];
      HashSeqPointwise(xs[1..], ys[1..], h);
    }
  }

  /** Hash consistency of the intended equality: equal values hash equally (for values without maps). */
  lemma {:induction false} EqualsImpliesEqualHash(a: Value, b: Value, h: Hashing)
    requires Equals(a, b, h)
    requires MapFree(b)
    ensures Hash(a, h) == Hash(b, h)
    decreases Size(a)
  {
    if a.List? {
      var xs, ys := a.items, b.items;
      ListEquality(Intended, xs, ys, h);
      forall i | 0 <= i < |xs|
        ensures Hash(xs[i], h) == Hash(ys[i], h)
      {
        ElementSize(xs, i);
        EqualsImpliesEqualHash(xs[i], ys[i], h);
      }
      HashSeqPointwise(xs, ys, h);
    }
  }

  // ---------------------------------------------------------------------------------------------
  // Equality on values without maps is an equivalence.

  /**
    The representative of a value's equality class: every integer is re-tagged `Int64`, since
    integer equality ignores the declared type, and lists are mapped element by element.
  */
  function Canon(v: Value): (r: Value)
    ensures r.Nil? <==> v.Nil?
    ensures r.List? <==> v.List?
    ensures r.Map? <==> v.Map?
    ensures r.List? ==> |r.items| == |v.items|
  {
    match v
    case Scalar(code, payload) => if code.IsInteger() then Scalar(Int64, payload) else v
    case List(items) => List(seq(|items|, i requires 0 <= i < |items| => Canon(items[i])))
    case _ => v
  }

  /** A value contains a map exactly when its representative does. */
  lemma {:induction false} CanonKeepsMapFree(v: Value)
    ensures MapFree(Canon(v)) <==> MapFree(v)
  {
    if v.List? {
      forall i | 0 <= i < |v.items|
        ensures MapFree(Canon(v).items[i]) <==> MapFree(v.items[i])
      {
        CanonKeepsMapFree(v.items[i]);
      }
    }
  }

  /** When either side contains no map, two values are equal iff they have the same representative. */
  lemma {:induction false} EqualsIsCanonical(a: Value, b: Value, h: Hashing)
    requires MapFree(a) || MapFree(b)
    ensures Equals(a, b, h) <==> Canon(a) == Canon(b)
  {
    if a.List? && b.List? {
      var xs, ys := a.items, b.items;
      ListEquality(Intended, xs, ys, h);
      if |xs| == |ys| {
        forall i | 0 <= i < |xs|
          ensures Equals(xs[i], ys[i], h) <==> Canon(xs[i]) == Canon(ys[i])
        {
          EqualsIsCanonical(xs[i], ys[i], h);
        }
        var ca, cb := Canon(a).items, Canon(b).items;
        assert forall i :: 0 <= i < |xs| ==> ca[i] == Canon(xs[i]) && cb[i] == Canon(ys[i]);
        if forall i :: 0 <= i < |xs| ==> Equals(xs[i], ys[i], h) {
          assert ca == cb;
        }
      } else {
        assert |Canon(a).items| != |Canon(b).items|;
      }
    }
  }

  /** Two values equal to the same map-free value are equal to each other, in either order. */
  lemma SharedMatch(a: Value, b: Value, c: Value, h: Hashing)
    requires MapFree(c)
    requires Equals(a, c, h) && Equals(b, c, h)
    ensures Equals(a, b, h) && Equals(b, a, h)
  {
    EqualsIsCanonical(a, c, h);
    EqualsIsCanonical(b, c, h);
    CanonKeepsMapFree(a);
    CanonKeepsMapFree(c);
    EqualsIsCanonical(a, b, h);
    EqualsIsCanonical(b, a, h);
  }

  // ---------------------------------------------------------------------------------------------
  // The as-written integer rule: an integer 0 equals every handle.

  /** As written, an integer scalar with payload 0 equals every raw, list and map, because a
      handle's `_value` is 0. */
  lemma ZeroEqualsEveryHandleAsWritten(code: TypeCode, other: Value, h: Hashing)
    requires code.IsInteger()
    requires other.Raw? || other.List? || other.Map?
    ensures EqualsBy(AsWritten, Scalar(code, 0), other, h)
  {
  }

  /**
    Counterexample: `0 == [1]` as written, yet the two hash differently, so the as-written equality is
    not consistent with `GetHashCode`.
  */
  lemma AsWrittenEqualityBreaksHashing(h: Hashing)
    ensures EqualsBy(AsWritten, Scalar(Int32, 0), List([Scalar(Int32, 1)]), h)
    ensures Hash(Scalar(Int32, 0), h) != Hash(List([Scalar(Int32, 1)]), h)
  {
    assert HashSeq([Scalar(Int32, 1)], h) == Hash(Scalar(Int32, 1), h) ^ HashSeq([], h);
    assert HashU64(1) == 1;
  }

  /** The intended rule never equates an integer with a handle. */
  lemma IntendedIntegerNeverEqualsHandle(code: TypeCode, payload: u64, other: Value, h: Hashing)
    requires code.IsInteger()
    requires other.Raw? || other.List? || other.Map?
    ensures !Equals(Scalar(code, payload), other, h)
  {
  }
}

=== FILE: lifting.dfy ===
/**
  `MessagePackObject.IsTypeOf(Type)`: whether the stored value can be read as a requested CLI type,
  with the integer "lifting" table, and the payload convention of the scalar constructors.
*/
module Lifting {
  import opened Common
  import opened Values

  /** The CLI types `IsTypeOf` is asked about. */
  datatype Requested =
    | Primitive(code: TypeCode)   // sbyte, byte, short, ushort, int, uint, long, ulong, float, double, bool
    | StringType                  // string
    | ByteArrayType               // byte[]
    | ObjectEnumerableType        // IEnumerable<MessagePackObject>
    | ObjectListType              // IList<MessagePackObject>
    | ObjectDictionaryType        // IDictionary<MessagePackObject, MessagePackObject>
    | RawStringType               // MessagePackString
    | ObjectType                  // object
    | OtherType                   // any other type the stored value is not an instance of (char, DateTime, ...)

  // ---------------------------------------------------------------------------------------------
  // Payload convention of the scalar constructors (two's complement, sign-extended to 64 bits).

  function Pow2(n: nat): nat {
    if n == 0 then 1 else 2 * Pow2(n - 1)
  }

  /** `n` is representable by an integer type of the given signedness and width. */
  predicate InRange(n: int, signed: bool, width: nat) {
    if signed then -(Pow2(width) / 2) <= n < Pow2(width) / 2 else 0 <= n < Pow2(width)
  }

  /** `InRange` at the four CLI integer widths, with the bounds written out. */
  lemma RangeFacts(n: int, signed: bool, width: nat)
    requires width == 8 || width == 16 || width == 32 || width == 64
    ensures width == 8 ==> (InRange(n, signed, width) <==>
      if signed then -0x80 <= n < 0x80 else 0 <= n < 0x100)
    ensures width == 16 ==> (InRange(n, signed, width) <==>
      if signed then -0x8000 <= n < 0x8000 else 0 <= n < 0x1_0000)
    ensures width == 32 ==> (InRange(n, signed, width) <==>
      if signed then -0x8000_0000 <= n < 0x8000_0000 else 0 <= n < 0x1_0000_0000)
    ensures width == 64 ==> (InRange(n, signed, width) <==>
      if signed then -TwoTo63 <= n < TwoTo63 else 0 <= n < TwoTo64)
  {
    Pow2Values();
  }

  /** The 64-bit image the constructor stores for the integer `n`. */
  function Encode(n: int): u64
    requires -TwoTo63 <= n < TwoTo64
  {
    if n < 0 then n + TwoTo64 else n
  }

  /** The mathematical value of an integer scalar. */
  function Decode(code: TypeCode, payload: u64): int
    requires code.IsInteger()
  {
    if code.IsSigned() && payload >= TwoTo63 then payload - TwoTo64 else payload
  }

  /** Constructing an integer of type `code` from an in-range `n` and reading it back gives `n`. */
  lemma EncodeDecode(code: TypeCode, n: int)
    requires code.IsInteger() && InRange(n, code.IsSigned(), code.Width())
    ensures -TwoTo63 <= n < TwoTo64
    ensures Decode(code, Encode(n)) == n
  {
    RangeFacts(n, code.IsSigned(), code.Width());
  }

  lemma Pow2Values()
    ensures Pow2(7) == 0x80 && Pow2(8) == 0x100
    ensures Pow2(15) == 0x8000 && Pow2(16) == 0x1_0000
    ensures Pow2(31) == 0x8000_0000 && Pow2(32) == 0x1_0000_0000
    ensures Pow2(63) == TwoTo63 && Pow2(64) == TwoTo64
  {
    assert Pow2(8) == 0x100;
    assert Pow2(16) == 0x1_0000 by { assert Pow2(16) == 0x100 * Pow2(8) by { Pow2Add(8, 8); } }
    assert Pow2(32) == 0x1_0000_0000 by { Pow2Add(16, 16); }
    assert Pow2(64) == TwoTo64 by { Pow2Add(32, 32); }
  }

  lemma {:induction false} Pow2Add(a: nat, b: nat)
    ensures Pow2(a + b) == Pow2(a) * Pow2(b)
    decreases a
  {
    if a > 0 {
      Pow2Add(a - 1, b);
    }
  }

  // ---------------------------------------------------------------------------------------------
  // The bound guarding long <-> ulong lifting.

  /** C# `<<` on a `uint`: the shift count is masked to its low five bits. */
  function UIntShiftLeft(x: nat, count: nat): nat
    requires x < 0x1_0000_0000
  {
    (x * Pow2(count % 32)) % 0x1_0000_0000
  }

  /** The bound the source writes as `0x80000000 << 32`, as C# evaluates it. */
  function EvaluatedLongBound(): nat {
    UIntShiftLeft(0x8000_0000, 32)
  }

  /** The literal is a `uint`, so the shift is by 0 and the bound is 2^31, not 2^63. */
  lemma EvaluatedLongBoundIsTwoTo31()
    ensures EvaluatedLongBound() == 0x8000_0000
  {
  }

  /** The bound that the other rows of the table evidently intend: 2^(64-1), as 0x80, 0x8000 and
      0x80000000 are 2^(w-1) for w = 8, 16, 32. */
  const IntendedLongBound: nat := TwoTo63

  // ---------------------------------------------------------------------------------------------
  // The lifting table.

  /** The `switch ( Type.GetTypeCode( type ) )` of `IsTypeOf` for a stored scalar, with the bound
      used by the `long`/`ulong` rows as a parameter. */
  function LiftBy(bound: nat, stored: TypeCode, p: u64, target: TypeCode): bool {
    match target
    case SByte =>
      stored == SByte || (stored == Byte && p < 0x80)
    case Byte =>
      (stored == SByte && p < 0x80) || stored == Byte
    case Int16 =>
      stored == SByte || (stored == Byte && p < 0x80)
      || stored == Int16 || (stored == UInt16 && p < 0x8000)
    case UInt16 =>
      (stored == SByte && p < 0x80) || stored == Byte
      || (stored == Int16 && p < 0x8000) || stored == UInt16
    case Int32 =>
      stored == SByte || (stored == Byte && p < 0x80)
      || stored == Int16 || (stored == UInt16 && p < 0x8000)
      || stored == Int32 || (stored == UInt32 && p < 0x8000_0000)
    case UInt32 =>
      (stored == SByte && p < 0x80) || stored == Byte
      || (stored == Int16 && p < 0x8000) || stored == UInt16
      || (stored == Int32 && p < 0x8000_0000) || stored == UInt32
    case Int64 =>
      stored == SByte || (stored == Byte && p < 0x80)
      || stored == Int16 || (stored == UInt16 && p < 0x8000)
      || stored == Int32 || (stored == UInt32 && p < 0x8000_0000)
      || stored == Int64 || (stored == UInt64 && p < bound)
    case UInt64 =>
      (stored == SByte && p < 0x80) || stored == Byte
      || (stored == Int16 && p < 0x8000) || stored == UInt16
      || (stored == Int32 && p < 0x8000_0000) || stored == UInt32
      || (stored == Int64 && p < bound) || stored == UInt64
    case Double =>
      stored == Single || stored == Double
    case _ =>
      stored == target
  }

  /** `IsTypeOf`: null (`None`) for nil, otherwise whether `v` can be read as `target`. */
  function IsTypeOfBy(bound: nat, v: Value, target: Requested): (r: Option<bool>)
    ensures r.None? <==> v.Nil?
  {
    match v
    case Nil => None
    case Scalar(c, p) => Some(target.Primitive? && LiftBy(bound, c, p, target.code))
    case Raw(_) =>
      // string, byte[], an IEnumerable<MessagePackObject>-compatible type, or a base of MessagePackString.
      Some(target.StringType? || target.ByteArrayType? || target.ObjectEnumerableType?
           || target.ObjectListType? || target.RawStringType? || target.ObjectType?)
    case List(_) =>
      Some(target.ObjectEnumerableType? || target.ObjectListType? || target.ObjectType?)
    case Map(_) =>
      Some(target.ObjectDictionaryType? || target.ObjectType?)
  }

  function IsTypeOfAsWritten(v: Value, target: Requested): Option<bool> {
    IsTypeOfBy(EvaluatedLongBound(), v, target)
  }

  /** `IsTypeOf` with the evidently intended 2^63 bound; the rest of the model uses this one. */
  function IsTypeOf(v: Value, target: Requested): (r: Option<bool>)
    ensures r.None? <==> v.Nil?
  {
    IsTypeOfBy(IntendedLongBound, v, target)
  }

  // ---------------------------------------------------------------------------------------------
  // What the table means.

  /**
    Reference meaning of integer lifting: an integer `n` stored as `stored` reads as `target` iff
    `target` is at least as wide as `stored` and `n` fits the type of the stored width with the
    target's signedness. Narrowing is never accepted, even when the value would fit.
  */
  predicate Liftable(stored: TypeCode, n: int, target: TypeCode)
    requires stored.IsInteger() && target.IsInteger()
  {
    stored.Width() <= target.Width() && InRange(n, target.IsSigned(), stored.Width())
  }

  /** With the intended bound, the table is exactly `Liftable` for every in-range stored integer. */
  lemma LiftingIsExact(stored: TypeCode, n: int, target: TypeCode)
    requires stored.IsInteger() && target.IsInteger()
    requires InRange(n, stored.IsSigned(), stored.Width())
    ensures -TwoTo63 <= n < TwoTo64
    ensures IsTypeOf(Scalar(stored, Encode(n)), Primitive(target)) == Some(Liftable(stored, n, target))
  {
    RangeFacts(n, stored.IsSigned(), stored.Width());
    RangeFacts(n, target.IsSigned(), stored.Width());
    assert IsTypeOf(Scalar(stored, Encode(n)), Primitive(target))
        == Some(LiftBy(IntendedLongBound, stored, Encode(n), target));
    var w := stored.Width();
    if w == 8 {
      LiftFromWidth8(stored, n, target);
    } else if w == 16 {
      LiftFromWidth16(stored, n, target);
    } else if w == 32 {
      LiftFromWidth32(stored, n, target);
    } else {
      LiftFromWidth64(stored, n, target);
    }
  }

  lemma LiftFromWidth8(stored: TypeCode, n: int, target: TypeCode)
    requires stored == SByte || stored == Byte
    requires target.IsInteger()
    requires if stored == SByte then -0x80 <= n < 0x80 else 0 <= n < 0x100
    ensures LiftBy(IntendedLongBound, stored, Encode(n), target) ==
              if target.IsSigned() then -0x80 <= n < 0x80 else 0 <= n < 0x100
  {
  }

  lemma LiftFromWidth16(stored: TypeCode, n: int, target: TypeCode)
    requires stored == Int16 || stored == UInt16
    requires target.IsInteger()
    requires if stored == Int16 then -0x8000 <= n < 0x8000 else 0 <= n < 0x1_0000
    ensures LiftBy(IntendedLongBound, stored, Encode(n), target) ==
              (target.Width() >= 16 && if target.IsSigned() then -0x8000 <= n < 0x8000 else 0 <= n < 0x1_0000)
  {
  }

  lemma LiftFromWidth32(stored: TypeCode, n: int, target: TypeCode)
    requires stored == Int32 || stored == UInt32
    requires target.IsInteger()
    requires if stored == Int32 then -0x8000_0000 <= n < 0x8000_0000 else 0 <= n < 0x1_0000_0000
    ensures LiftBy(IntendedLongBound, stored, Encode(n), target) ==
              (target.Width() >= 32
               && if target.IsSigned() then -0x8000_0000 <= n < 0x8000_0000 else 0 <= n < 0x1_0000_0000)
  {
  }

  lemma LiftFromWidth64(stored: TypeCode, n: int, target: TypeCode)
    requires stored == Int64 || stored == UInt64
    requires target.IsInteger()
    requires if stored == Int64 then -TwoTo63 <= n < TwoTo63 else 0 <= n < TwoTo64
    ensures LiftBy(IntendedLongBound, stored, Encode(n), target) ==
              (target.Width() == 64 && if target.IsSigned() then -TwoTo63 <= n < TwoTo63 else 0 <= n < TwoTo64)
  {
  }

  /** Lifting never loses information: an accepted integer fits the requested type. */
  lemma LiftingIsSound(stored: TypeCode, n: int, target: TypeCode)
    requires stored.IsInteger() && target.IsInteger()
    requires InRange(n, stored.IsSigned(), stored.Width())
    requires -TwoTo63 <= n < TwoTo64
    requires IsTypeOf(Scalar(stored, Encode(n)), Primitive(target)) == Some(true)
    ensures InRange(n, target.IsSigned(), target.Width())
  {
    LiftingIsExact(stored, n, target);
    RangeFacts(n, target.IsSigned(), stored.Width());
    RangeFacts(n, target.IsSigned(), target.Width());
  }

  /** The floating-point, Boolean and non-primitive rows. */
  lemma NonIntegerRows(code: TypeCode, p: u64, target: Requested)
    ensures IsTypeOf(Scalar(code, p), Primitive(Double)) == Some(code == Single || code == Double)
    ensures IsTypeOf(Scalar(code, p), Primitive(Single)) == Some(code == Single)
    ensures IsTypeOf(Scalar(code, p), Primitive(Boolean)) == Some(code == Boolean)
    ensures !target.Primitive? ==> IsTypeOf(Scalar(code, p), target) == Some(false)
  {
  }

  /**
    The as-written table differs from the intended one exactly on `long` read as `ulong` and
    `ulong` read as `long` for payloads in [2^31, 2^63), where it wrongly answers false.
  */
  lemma AsWrittenLiftingDiffers(v: Value, target: Requested)
    ensures IsTypeOfAsWritten(v, target) != IsTypeOf(v, target) <==>
              && v.Scalar? && target.Primitive?
              && ((v.code == UInt64 && target.code == Int64) || (v.code == Int64 && target.code == UInt64))
              && 0x8000_0000 <= v.payload < TwoTo63
    ensures IsTypeOfAsWritten(v, target) != IsTypeOf(v, target) ==>
              IsTypeOfAsWritten(v, target) == Some(false) && IsTypeOf(v, target) == Some(true)
  {
    EvaluatedLongBoundIsTwoTo31();
  }

  /** Counterexample: the `ulong` 2^32 fits a `long`, but as written `IsTypeOf<long>()` says no. */
  lemma AsWrittenRejectsFittingULong()
    ensures InRange(0x1_0000_0000, true, 64)
    ensures IsTypeOfAsWritten(Scalar(UInt64, 0x1_0000_0000), Primitive(Int64)) == Some(false)
    ensures IsTypeOf(Scalar(UInt64, 0x1_0000_0000), Primitive(Int64)) == Some(true)
  {
    RangeFacts(0x1_0000_0000, true, 64);
    EvaluatedLongBoundIsTwoTo31();
  }

  /** Counterexample: the `long` 2^32 is non-negative, but as written `IsTypeOf<ulong>()` says no. */
  lemma AsWrittenRejectsFittingLong()
    ensures InRange(0x1_0000_0000, false, 64)
    ensures IsTypeOfAsWritten(Scalar(Int64, 0x1_0000_0000), Primitive(UInt64)) == Some(false)
    ensures IsTypeOf(Scalar(Int64, 0x1_0000_0000), Primitive(UInt64)) == Some(true)
  {
    RangeFacts(0x1_0000_0000, false, 64);
    EvaluatedLongBoundIsTwoTo31();
  }

  // ---------------------------------------------------------------------------------------------
  // Kind tests.

  /** `IsRaw`: a `MessagePackString` handle (taken to be an `IEnumerable<byte>`). */
  predicate IsRaw(v: Value)
    ensures IsRaw(v) <==> IsTypeOf(v, RawStringType) == Some(true)
    ensures IsRaw(v) ==> IsTypeOf(v, ByteArrayType) == Some(true) && IsTypeOf(v, StringType) == Some(true)
  {
    v.Raw?
  }

  /** `IsList` and `IsArray`: an `IList<MessagePackObject>` handle. */
  predicate IsList(v: Value)
    ensures IsList(v) ==> IsTypeOf(v, ObjectListType) == Some(true)
    ensures IsTypeOf(v, ObjectListType) == Some(true) <==> IsList(v) || IsRaw(v)
  {
    v.List?
  }

  /** `IsDictionary` and `IsMap`: an `IDictionary<MessagePackObject, MessagePackObject>` handle. */
  predicate IsMap(v: Value)
    ensures IsMap(v) <==> IsTypeOf(v, ObjectDictionaryType) == Some(true)
  {
    v.Map?
  }

  // ---------------------------------------------------------------------------------------------
  // What integer equality means.

  /**
    Integer scalars are equal exactly when their mathematical values agree modulo 2^64: the
    comparison is of the sign-extended 64-bit images, whatever the declared widths.
  */
  lemma IntegerEqualityIsModular(c1: TypeCode, n1: int, c2: TypeCode, n2: int, h: Hashing)
    requires c1.IsInteger() && c2.IsInteger()
    requires InRange(n1, c1.IsSigned(), c1.Width()) && InRange(n2, c2.IsSigned(), c2.Width())
    ensures -TwoTo63 <= n1 < TwoTo64 && -TwoTo63 <= n2 < TwoTo64
    ensures Equals(Scalar(c1, Encode(n1)), Scalar(c2, Encode(n2)), h) <==> (n1 - n2) % TwoTo64 == 0
  {
    RangeFacts(n1, c1.IsSigned(), c1.Width());
    RangeFacts(n2, c2.IsSigned(), c2.Width());
    EncodeIsModular(n1, n2);
    assert Equals(Scalar(c1, Encode(n1)), Scalar(c2, Encode(n2)), h) <==> Encode(n1) == Encode(n2);
  }

  /** Two integers have the same 64-bit image exactly when they agree modulo 2^64. */
  lemma EncodeIsModular(n1: int, n2: int)
    requires -TwoTo63 <= n1 < TwoTo64 && -TwoTo63 <= n2 < TwoTo64
    ensures Encode(n1) == Encode(n2) <==> (n1 - n2) % TwoTo64 == 0
  {
    var d := n1 - n2;
    if n1 < 0 && n2 >= 0 {
      assert Encode(n1) - Encode(n2) == d + TwoTo64;
      assert -TwoTo64 - TwoTo63 < d < 0;
      if d == -TwoTo64 { assert d % TwoTo64 == 0; }
      else if d < -TwoTo64 { assert d % TwoTo64 == d + 2 * TwoTo64; }
      else { assert d % TwoTo64 == d + TwoTo64; }
    } else if n1 >= 0 && n2 < 0 {
      assert Encode(n1) - Encode(n2) == d - TwoTo64;
      assert 0 < d < TwoTo64 + TwoTo63;
      if d == TwoTo64 { assert d % TwoTo64 == 0; }
      else if d > TwoTo64 { assert d % TwoTo64 == d - TwoTo64; }
      else { assert d % TwoTo64 == d; }
    } else {
      assert Encode(n1) - Encode(n2) == d;
      assert -TwoTo64 < d < TwoTo64;
      if d < 0 { assert d % TwoTo64 == d + TwoTo64; }
      else { assert d % TwoTo64 == d; }
    }
  }

  /** The same integer stored at any two widths gives equal values with equal hash codes. */
  lemma SameIntegerAcrossWidths(c1: TypeCode, c2: TypeCode, n: int, h: Hashing)
    requires c1.IsInteger() && c2.IsInteger()
    requires InRange(n, c1.IsSigned(), c1.Width()) && InRange(n, c2.IsSigned(), c2.Width())
    ensures -TwoTo63 <= n < TwoTo64
    ensures Equals(Scalar(c1, Encode(n)), Scalar(c2, Encode(n)), h)
    ensures Hash(Scalar(c1, Encode(n)), h) == Hash(Scalar(c2, Encode(n)), h)
  {
    IntegerEqualityIsModular(c1, n, c2, n, h);
  }

  /** `sbyte` -1 differs from `byte` 255, but equals `ulong` 2^64 - 1, whose image is the same. */
  lemma MinusOneAgainstUnsigned(h: Hashing)
    ensures !Equals(Scalar(SByte, Encode(-1)), Scalar(Byte, Encode(255)), h)
    ensures Equals(Scalar(SByte, Encode(-1)), Scalar(UInt64, Encode(TwoTo64 - 1)), h)
  {
    Pow2Values();
    IntegerEqualityIsModular(SByte, -1, Byte, 255, h);
    IntegerEqualityIsModular(SByte, -1, UInt64, TwoTo64 - 1, h);
  }
}

=== FILE: packing.dfy ===
/**
  `MessagePackObject.PackToMessage(Packer, PackingOptions)`: which `Packer` call a value makes.
  The packer itself is not modelled; the result is the single call it receives.
*/
module Packing {
  import opened Common
  import opened Values

  /** `PackingOptions`; only its strictness is consulted here. */
  datatype PackingOptions = PackingOptions(isStrict: bool)

  /** The call made on the packer. Numeric calls carry the stored type and payload. */
  datatype PackCall =
    | PackNull
    | PackObject(handle: Value, options: Option<PackingOptions>)
    | Pack(code: TypeCode, payload: u64)
    | PackStrict(code: TypeCode, payload: u64)
    | PackBoolean(flag: bool)

  datatype PackError = PackerIsNull   // ArgumentNullException("packer")

  /** The options select the strict overloads only when present and strict. */
  predicate Strict(options: Option<PackingOptions>) {
    options.Some? && options.value.isStrict
  }

  /** `PackToMessage`; `packerGiven` is false when the packer argument is null. */
  function PackToMessage(packerGiven: bool, v: Value, options: Option<PackingOptions>): (r: Result<PackCall, PackError>)
    ensures !packerGiven <==> r == Err(PackerIsNull)
    ensures packerGiven && v.Nil? ==> r == Ok(PackNull)
    ensures packerGiven && (v.Raw? || v.List? || v.Map?) ==> r == Ok(PackObject(v, options))
    ensures packerGiven && v.Scalar? && v.code == Boolean ==> r == Ok(PackBoolean(v.payload != 0))
    ensures packerGiven && v.Scalar? && v.code != Boolean ==>
              r == Ok(if Strict(options) then PackStrict(v.code, v.payload) else Pack(v.code, v.payload))
  {
    if !packerGiven then
      Err(PackerIsNull)
    else
      match v
      case Nil => Ok(PackNull)
      case Scalar(code, payload) =>
        if code == Boolean then
          Ok(PackBoolean(payload != 0))
        else if Strict(options) then
          Ok(PackStrict(code, payload))
        else
          Ok(Pack(code, payload))
      case _ => Ok(PackObject(v, options))
  }

  /**
    Apart from the bits of a Boolean, the call received determines the value packed: two values
    making the same call under the same options are the same value.
  */
  lemma PackCallIdentifiesValue(v1: Value, v2: Value, options: Option<PackingOptions>)
    requires !(v1.Scalar? && v1.code == Boolean)
    requires PackToMessage(true, v1, options) == PackToMessage(true, v2, options)
    ensures v1 == v2
  {
    match v1
    case Nil => {}
    case Scalar(_, _) => {}
    case _ => {}
  }

  /** Every non-zero Boolean payload packs as `true`; zero packs as `false`. */
  lemma BooleanPackIsNormalised(payload: u64, options: Option<PackingOptions>)
    ensures PackToMessage(true, Scalar(Boolean, payload), options) == PackToMessage(true, Scalar(Boolean, if payload == 0 then 0 else 1), options)
  {
  }

  /** Strict and non-strict options change only the overload chosen for a numeric value, never the
      value handed to the packer, and change nothing for nil, Booleans and handles. */
  lemma StrictnessOnlySelectsOverload(v: Value, o1: Option<PackingOptions>, o2: Option<PackingOptions>)
    requires !(v.Raw? || v.List? || v.Map?)
    ensures var c1 := PackToMessage(true, v, o1).value;
            var c2 := PackToMessage(true, v, o2).value;
            (Strict(o1) == Strict(o2) ==> c1 == c2)
            && (c1.Pack? || c1.PackStrict? ==> (c2.Pack? || c2.PackStrict?) && c1.code == c2.code && c1.payload == c2.payload)
  {
  }
}

=== FILE: subtree.dfy ===
/**
  The subtree-mode guard of the leaf unpackers. A fast unpacker reads a subtree with itself; a
  collection-validating unpacker hands out a separate subtree reader and refuses to be used
  (reading another subtree, skipping, or any operation that needs streaming mode) until the
  subtree reader is ended. The stream-based and the byte-array-based variants of each policy have
  the same guard code, so one model covers both.
*/
module SubtreeGuard {
  import opened Common

  /** What `ReadSubtreeCore` returns: the unpacker itself, or a new `SubtreeUnpacker` on its core. */
  datatype Reader = Itself | SubtreeReader

  /** A fast unpacker keeps no subtree state. */
  datatype FastUnpacker = FastUnpacker

  /** A collection-validating unpacker; the flag is `_isSubtreeReading`, initially false. */
  datatype ValidatingUnpacker = ValidatingUnpacker(isSubtreeReading: bool)

  datatype GuardError =
    | CannotBeSubtreeMode   // not positioned on an array or map header
    | InSubtreeMode         // a subtree reader is still open
    | WrongMode             // `VerifyMode(UnpackerMode.Streaming)` refused

  /** The unpacker after a call, and what the call returned or threw. */
  datatype Step<+T> = Step(state: ValidatingUnpacker, result: Result<T, GuardError>)

  /** `FastStreamUnpacker.ReadSubtreeCore` and `FastByteArrayUnpacker.ReadSubtreeCore`. */
  function FastReadSubtreeCore(u: FastUnpacker): (r: Reader)
    ensures r == Itself
  {
    Itself
  }

  /** The validating `ReadSubtreeCore`: always a fresh subtree reader. */
  function ReadSubtreeCore(u: ValidatingUnpacker): (r: Reader)
    ensures r != Itself
  {
    SubtreeReader
  }

  /**
    `InternalReadSubtree`; `atCollectionHeader` is the collaborator `IsCollectionHeader`. The header
    test comes first, so a misplaced call reports that even while a subtree is open. On success the
    flag records whether a separate reader was handed out.
  */
  function InternalReadSubtree(u: ValidatingUnpacker, atCollectionHeader: bool): (r: Step<Reader>)
    ensures !atCollectionHeader ==> r == Step(u, Err(CannotBeSubtreeMode))
    ensures atCollectionHeader && u.isSubtreeReading ==> r == Step(u, Err(InSubtreeMode))
    ensures r.result.Ok? <==> atCollectionHeader && !u.isSubtreeReading
    ensures r.result.Ok? ==> r.state.isSubtreeReading == (r.result.value != Itself)
    ensures r.result.Ok? ==> r.state.isSubtreeReading
  {
    if !atCollectionHeader then
      Step(u, Err(CannotBeSubtreeMode))
    else if u.isSubtreeReading then
      Step(u, Err(InSubtreeMode))
    else
      var reader := ReadSubtreeCore(u);
      Step(ValidatingUnpacker(reader != Itself), Ok(reader))
  }

  /** `EndReadSubtree`: clears the flag; what the base class does afterwards is not modelled. */
  function EndReadSubtree(u: ValidatingUnpacker): (r: ValidatingUnpacker)
    ensures !r.isSubtreeReading
  {
    ValidatingUnpacker(false)
  }

  /** `EnsureNotInSubtreeMode`: the streaming-mode check (`streaming`) first, then the flag. */
  function EnsureNotInSubtreeMode(u: ValidatingUnpacker, streaming: bool): (r: Result<(), GuardError>)
    ensures !streaming ==> r == Err(WrongMode)
    ensures streaming ==> (r.Ok? <==> !u.isSubtreeReading)
    ensures streaming && r.Err? ==> r.error == InSubtreeMode
  {
    if !streaming then Err(WrongMode)
    else if u.isSubtreeReading then Err(InSubtreeMode)
    else Ok(())
  }

  /** `BeginSkipCore`: a skip is refused while a subtree reader is open. */
  function BeginSkipCore(u: ValidatingUnpacker): (r: Result<(), GuardError>)
    ensures r.Ok? <==> !u.isSubtreeReading
    ensures r.Err? ==> r.error == InSubtreeMode
  {
    if u.isSubtreeReading then Err(InSubtreeMode) else Ok(())
  }

  // ---------------------------------------------------------------------------------------------
  // Sequences of calls.

  datatype Call =
    | ReadSubtreeCall(atCollectionHeader: bool)
    | EndReadSubtreeCall
    | EnsureNotInSubtreeModeCall(streaming: bool)
    | BeginSkipCall

  /** One call: the unpacker after it, and the error it threw, if any. */
  function Perform(u: ValidatingUnpacker, c: Call): (ValidatingUnpacker, Option<GuardError>) {
    match c
    case ReadSubtreeCall(atHeader) =>
      var s := InternalReadSubtree(u, atHeader);
      (s.state, if s.result.Err? then Some(s.result.error) else None)
    case EndReadSubtreeCall =>
      (EndReadSubtree(u), None)
    case EnsureNotInSubtreeModeCall(streaming) =>
      var r := EnsureNotInSubtreeMode(u, streaming);
      (u, if r.Err? then Some(r.error) else None)
    case BeginSkipCall =>
      var r := BeginSkipCore(u);
      (u, if r.Err? then Some(r.error) else None)
  }

  /** The errors thrown by a sequence of calls, one entry per call. */
  function Errors(u: ValidatingUnpacker, calls: seq<Call>): (r: seq<Option<GuardError>>)
    ensures |r| == |calls|
    decreases |calls|
  {
    if calls == [] then []
    else
      var (next, error) := Perform(u, calls[0]);
      [error] + Errors(next, calls[1..])
  }

  function Final(u: ValidatingUnpacker, calls: seq<Call>): ValidatingUnpacker
    decreases |calls|
  {
    if calls == [] then u else Final(Perform(u, calls[0]).0, calls[1..])
  }

  /**
    While a subtree reader is open, every call other than `EndReadSubtree` fails and the parent
    stays locked.
  */
  lemma {:induction false} OpenSubtreeLocksParent(u: ValidatingUnpacker, calls: seq<Call>)
    requires u.isSubtreeReading
    requires forall i :: 0 <= i < |calls| ==> !calls[i].EndReadSubtreeCall?
    ensures Final(u, calls).isSubtreeReading
    ensures forall i :: 0 <= i < |calls| ==> Errors(u, calls)[i].Some?
    decreases |calls|
  {
    if calls != [] {
      var (next, error) := Perform(u, calls[0]);
      assert next == u && error.Some?;
      OpenSubtreeLocksParent(u, calls[1..]);
      assert Errors(u, calls) == [error] + Errors(u, calls[1..]);
    }
  }

  /** Reading a subtree locks the parent; ending it unlocks it again. */
  lemma ReadThenEnd(u: ValidatingUnpacker)
    requires !u.isSubtreeReading
    ensures Errors(u, [ReadSubtreeCall(true), BeginSkipCall]) == [None, Some(InSubtreeMode)]
    ensures Errors(u, [ReadSubtreeCall(true), EndReadSubtreeCall, BeginSkipCall]) == [None, None, None]
    ensures Errors(u, [ReadSubtreeCall(true), EndReadSubtreeCall, ReadSubtreeCall(true)]) == [None, None, None]
  {
  }
}

=== FILE: values.dfy ===
/**
  The value model of MessagePack for CLI (`MessagePackObject`) together with the representation of
  its map handle (`MessagePackObjectDictionary`), which the equality of maps consults.

  The source struct holds an object `_handleOrTypeCode` and a 64-bit `_value`:
  - a null handle is nil;
  - a `ValueTypeCode` handle makes the value a scalar whose bits are in `_value`;
  - any other handle (a `MessagePackString`, a list or a dictionary) is a reference value, and then
    `_value` keeps its default 0, because every handle constructor starts from `new MessagePackObject()`.
  `Value` below has one variant per case; `RawPayload` recovers `_value` for every variant.
*/
module Values {
  import opened Common

  /** The CLI primitive type a scalar was built from, i.e. the `ValueTypeCode` singletons. */
  datatype TypeCode =
    | SByte | Byte | Int16 | UInt16 | Int32 | UInt32 | Int64 | UInt64
    | Single | Double | Boolean
  {
    predicate IsInteger() {
      !(Single? || Double? || Boolean?)
    }

    predicate IsSigned() {
      SByte? || Int16? || Int32? || Int64?
    }

    /** Bit width of an integer type. */
    function Width(): nat
      requires IsInteger()
    {
      match this
      case SByte | Byte => 8
      case Int16 | UInt16 => 16
      case Int32 | UInt32 => 32
      case Int64 | UInt64 => 64
    }
  }

  datatype Value =
    | Nil
    | Scalar(code: TypeCode, payload: u64)
    | Raw(bytes: seq<byte>)          // a MessagePackString handle, compared by its bytes
    | List(items: seq<Value>)        // an IList<MessagePackObject> handle
    | Map(dict: Dict)                // a MessagePackObjectDictionary handle

  /** One slot of the hash table. */
  datatype Entry = Entry(key: Value, value: Value)

  /**
    The two representations of `MessagePackObjectDictionary`: the parallel `_keys`/`_values` lists, or
    the `_dictionary` hash table (both lists null). The hash table is abstracted to its entries in
    its (unspecified) enumeration order.
  */
  datatype Table =
    | Listed(keys: seq<Value>, values: seq<Value>)
    | Hashed(entries: seq<Entry>)

  datatype Dict = Dict(table: Table, version: int32)

  /** The `_value` field of the source struct: a scalar's bits, and 0 for nil and for every handle. */
  function RawPayload(v: Value): u64 {
    if v.Scalar? then v.payload else 0
  }

  /** Number of pairs (`Count`): `_keys.Count` in list mode, `_dictionary.Count` in hash mode. */
  function Count(d: Dict): nat {
    match d.table
    case Listed(keys, _) => |keys|
    case Hashed(entries) => |entries|
  }

  /** The pairs of a dictionary in enumeration order; one per key when the lists are aligned. */
  function Pairs(d: Dict): (r: seq<Entry>)
    ensures |r| <= Count(d)
    ensures (d.table.Listed? ==> |d.table.keys| == |d.table.values|) ==> |r| == Count(d)
  {
    match d.table
    case Listed(keys, values) => Zip(keys, values)
    case Hashed(entries) => entries
  }

  function Zip(keys: seq<Value>, values: seq<Value>): (r: seq<Entry>)
    ensures |r| == if |keys| <= |values| then |keys| else |values|
    ensures forall i :: 0 <= i < |r| ==> r[i] == Entry(keys[i], values[i])
  {
    if keys == [] || values == [] then [] else [Entry(keys[0], values[0])] + Zip(keys[1..], values[1..])
  }

  // ---------------------------------------------------------------------------------------------
  // Sizes, used only as termination measures for the mutually recursive equality.

  function Size(v: Value): (n: nat)
    ensures 1 <= n
  {
    match v
    case List(items) => 1 + SeqSize(items)
    case Map(d) => 1 + DictSize(d)
    case _ => 1
  }

  function SeqSize(s: seq<Value>): nat {
    if s == [] then 0 else Size(s[0]) + SeqSize(s[1..])
  }

  function DictSize(d: Dict): nat {
    match d.table
    case Listed(keys, values) => SeqSize(keys) + SeqSize(values)
    case Hashed(entries) => EntriesSize(entries)
  }

  function EntriesSize(es: seq<Entry>): nat {
    if es == [] then 0 else EntrySize(es[0]) + EntriesSize(es[1..])
  }

  function EntrySize(e: Entry): nat {
    Size(e.key) + Size(e.value)
  }

  lemma {:induction false} ElementSize(s: seq<Value>, i: nat)
    requires i < |s|
    ensures Size(s[i]) <= SeqSize(s)
    decreases i
  {
    if i > 0 {
      ElementSize(s[1..], i - 1);
    }
  }

  lemma {:induction false} EntryElementSize(es: seq<Entry>, i: nat)
    requires i < |es|
    ensures Size(es[i].key) <= EntriesSize(es)
    ensures Size(es[i].value) <= EntriesSize(es)
    decreases i
  {
    if i > 0 {
      EntryElementSize(es[1..], i - 1);
    }
  }

  // ---------------------------------------------------------------------------------------------
  // Hashing (`GetHashCode`).

  /**
    Collaborators whose hash codes are not part of this model: `MessagePackString.GetHashCode`
    (`raw`) and the hash of a `KeyValuePair<MessagePackObject, MessagePackObject>`, given as a
    function of the key's and the value's hash codes (`pair`).
  */
  datatype Hashing = Hashing(raw: seq<byte> -> bv32, pair: (bv32, bv32) -> bv32)

  /** `UInt64.GetHashCode`: the low 32 bits XOR the high 32 bits. */
  function HashU64(p: u64): (r: bv32)
    ensures p < TwoTo32 ==> r == p as bv32
  {
    ((p % TwoTo32) as bv32) ^ ((p / TwoTo32) as bv32)
  }

  function Hash(v: Value, h: Hashing): bv32
    decreases Size(v), 0
  {
    match v
    case Nil => 0
    case Scalar(_, p) => HashU64(p)
    case Raw(bytes) => h.raw(bytes)
    case List(items) => HashSeq(items, h)
    case Map(d) => HashDict(d, h)
  }

  /** `Aggregate(0, (hash, item) => hash ^ item.GetHashCode())` over a list. */
  function HashSeq(s: seq<Value>, h: Hashing): bv32
    decreases SeqSize(s), 1
  {
    if s == [] then 0 else Hash(s[0], h) ^ HashSeq(s[1..], h)
  }

  function HashDict(d: Dict, h: Hashing): bv32
    decreases DictSize(d), 3
  {
    match d.table
    case Listed(keys, values) => HashPairs(keys, values, h)
    case Hashed(entries) => HashEntries(entries, h)
  }

  function HashPairs(keys: seq<Value>, values: seq<Value>, h: Hashing): bv32
    decreases SeqSize(keys) + SeqSize(values), 2
  {
    if keys == [] || values == [] then 0
    else h.pair(Hash(keys[0], h), Hash(values[0], h)) ^ HashPairs(keys[1..], values[1..], h)
  }

  function HashEntries(es: seq<Entry>, h: Hashing): bv32
    decreases EntriesSize(es), 2
  {
    if es == [] then 0 else HashEntry(es[0], h) ^ HashEntries(es[1..], h)
  }

  function HashEntry(e: Entry, h: Hashing): bv32
    decreases EntrySize(e), 1
  {
    h.pair(Hash(e.key, h), Hash(e.value, h))
  }

  // ---------------------------------------------------------------------------------------------
  // Equality (`Equals(MessagePackObject)`) and the dictionary lookups it depends on.

  /**
    `AsWritten` is the source's integer rule, which compares the left payload with the right `_value`
    whatever the right operand is. `Intended` additionally requires the right operand to be an
    integer scalar. Every other rule is shared.
  */
  datatype EqRule = AsWritten | Intended

  /** The scalar branch of `Equals` with `this` a scalar of type `code` and bits `payload`. */
  function ScalarEquals(rule: EqRule, code: TypeCode, payload: u64, other: Value): bool {
    if !code.IsInteger() then
      // Boolean, Single and Double: the same ValueTypeCode instance and the same bits.
      other.Scalar? && other.code == code && payload == other.payload
    else if rule == AsWritten then
      payload == RawPayload(other)
    else
      other.Scalar? && other.code.IsInteger() && payload == other.payload
  }

  function EqualsBy(rule: EqRule, a: Value, b: Value, h: Hashing): bool
    decreases Size(a) + Size(b), 0
  {
    if a.Nil? then b.Nil?
    else if b.Nil? then false
    else if a.Scalar? then ScalarEquals(rule, a.code, a.payload, b)
    else if a.List? then b.List? && SeqEqualsBy(rule, a.items, b.items, h)
    else if a.Map? then b.Map? && MapEqualsBy(rule, a.dict, b.dict, h)
    else b.Raw? && a.bytes == b.bytes
  }

  /** `SequenceEqual`: same length and element-wise `Equals`, left element on the left. */
  function SeqEqualsBy(rule: EqRule, xs: seq<Value>, ys: seq<Value>, h: Hashing): bool
    decreases SeqSize(xs) + SeqSize(ys), 1
  {
    if |xs| != |ys| then false
    else if xs == [] then true
    else EqualsBy(rule, xs[0], ys[0], h) && SeqEqualsBy(rule, xs[1..], ys[1..], h)
  }

  /** Same `Count`, and every left pair's key is found in the right map with an equal value. */
  function MapEqualsBy(rule: EqRule, d1: Dict, d2: Dict, h: Hashing): bool
    decreases DictSize(d1) + DictSize(d2), 4
  {
    Count(d1) == Count(d2) &&
    match d1.table
    case Listed(keys, values) => PairsFoundBy(rule, keys, values, d2, h)
    case Hashed(entries) => EntriesFoundBy(rule, entries, d2, h)
  }

  function PairsFoundBy(rule: EqRule, keys: seq<Value>, values: seq<Value>, d2: Dict, h: Hashing): bool
    decreases SeqSize(keys) + SeqSize(values) + DictSize(d2), 3
  {
    if keys == [] || values == [] then true
    else
      FoundWithEqualValue(rule, keys[0], values[0], d2, h, LookupBy(rule, d2, keys[0], h))
      && PairsFoundBy(rule, keys[1..], values[1..], d2, h)
  }

  function EntriesFoundBy(rule: EqRule, es: seq<Entry>, d2: Dict, h: Hashing): bool
    decreases EntriesSize(es) + DictSize(d2), 3
  {
    if es == [] then true
    else
      assert EntrySize(es[0]) == Size(es[0].key) + Size(es[0].value);
      FoundWithEqualValue(rule, es[0].key, es[0].value, d2, h, LookupBy(rule, d2, es[0].key, h))
      && EntriesFoundBy(rule, es[1..], d2, h)
  }

  /** `TryGetValue` succeeded and `kv.Value == value`, the left pair's value on the left. */
  function FoundWithEqualValue(rule: EqRule, key: Value, value: Value, d2: Dict, h: Hashing, found: Option<Value>): bool
    requires found.Some? ==> Size(found.value) <= DictSize(d2)
    decreases Size(key) + Size(value) + DictSize(d2), 2
  {
    match found
    case None => false
    case Some(v) => EqualsBy(rule, value, v, h)
  }

  /** `TryGetValue`: the value stored under the first key that matches `probe`. */
  function LookupBy(rule: EqRule, d: Dict, probe: Value, h: Hashing): (r: Option<Value>)
    ensures r.Some? ==> Size(r.value) <= DictSize(d)
    decreases DictSize(d) + Size(probe), 2
  {
    match d.table
    case Listed(keys, values) =>
      var i := FindIndexBy(rule, keys, probe, h);
      if 0 <= i < |values| then ElementSize(values, i); Some(values[i]) else None
    case Hashed(entries) =>
      var i := FindEntryBy(rule, entries, probe, h);
      if 0 <= i then EntryElementSize(entries, i); Some(entries[i].value) else None
  }

  /** `_keys.FindIndex(item => item == probe)`: the stored key is the left operand. */
  function FindIndexBy(rule: EqRule, keys: seq<Value>, probe: Value, h: Hashing): (i: int)
    ensures -1 <= i < |keys|
    decreases SeqSize(keys) + Size(probe), 1
  {
    if keys == [] then -1
    else if EqualsBy(rule, keys[0], probe, h) then 0
    else
      var j := FindIndexBy(rule, keys[1..], probe, h);
      if j < 0 then -1 else j + 1
  }

  /**
    The slot a hash-table probe lands on: a stored key with the probe's hash code that the comparer
    calls equal (stored key on the left). When several slots qualify the table's choice is
    unspecified; the model takes the earliest.
  */
  function FindEntryBy(rule: EqRule, es: seq<Entry>, probe: Value, h: Hashing): (i: int)
    ensures -1 <= i < |es|
    decreases EntriesSize(es) + Size(probe), 1
  {
    if es == [] then -1
    else
      assert EntrySize(es[0]) == Size(es[0].key) + Size(es[0].value);
      if Hash(es[0].key, h) == Hash(probe, h) && EqualsBy(rule, es[0].key, probe, h) then 0
    else
      var j := FindEntryBy(rule, es[1..], probe, h);
      if j < 0 then -1 else j + 1
  }

  // ---------------------------------------------------------------------------------------------
  // The intended equality, which the dictionary and the rest of the model use.

  function Equals(a: Value, b: Value, h: Hashing): bool {
    EqualsBy(Intended, a, b, h)
  }

  function Lookup(d: Dict, probe: Value, h: Hashing): Option<Value> {
    LookupBy(Intended, d, probe, h)
  }

  function FindIndex(keys: seq<Value>, probe: Value, h: Hashing): int {
    FindIndexBy(Intended, keys, probe, h)
  }

  function FindEntry(es: seq<Entry>, probe: Value, h: Hashing): int {
    FindEntryBy(Intended, es, probe, h)
  }

  // ---------------------------------------------------------------------------------------------
  // Well-formedness.

  /** `AssertInvariant` plus the facts every mutation keeps: no nil key, distinct keys, and the
      list mode never holds more than the threshold of 10 pairs. */
  predicate DictInvariant(d: Dict, h: Hashing) {
    match d.table
    case Listed(keys, values) =>
      && |keys| == |values|
      && |keys| <= 10
      && (forall i :: 0 <= i < |keys| ==> !keys[i].Nil?)
      && (forall i, j :: 0 <= i < j < |keys| ==> !Equals(keys[i], keys[j], h))
    case Hashed(entries) =>
      && (forall i :: 0 <= i < |entries| ==> !entries[i].key.Nil?)
      && (forall i, j :: 0 <= i < j < |entries| ==>
            !(Hash(entries[i].key, h) == Hash(entries[j].key, h) && Equals(entries[i].key, entries[j].key, h)))
  }

  /** Every map nested in `v` satisfies the dictionary invariant. */
  predicate WellFormed(v: Value, h: Hashing) {
    match v
    case List(items) => forall i :: 0 <= i < |items| ==> WellFormed(items[i], h)
    case Map(d) =>
      && DictInvariant(d, h)
      && (match d.table
          case Listed(keys, values) =>
            && (forall i :: 0 <= i < |keys| ==> WellFormed(keys[i], h))
            && (forall i :: 0 <= i < |values| ==> WellFormed(values[i], h))
          case Hashed(entries) =>
            forall i :: 0 <= i < |entries| ==> WellFormed(entries[i].key, h) && WellFormed(entries[i].value, h))
    case _ => true
  }

  /** No map occurs anywhere in `v`. */
  predicate MapFree(v: Value) {
    match v
    case List(items) => forall i :: 0 <= i < |items| ==> MapFree(items[i])
    case Map(_) => false
    case _ => true
  }
}
